=== FILE: README.md ===
# RustyProxy WebSocket handshake, modelled in Dafny

RustyProxy is a small TCP proxy. It listens on `[::]:<port>`. The port comes
from a `--port <n>` command-line argument and defaults to 80. For each client
the proxy does four things in order:

1. It performs a WebSocket opening handshake (RFC 6455, section 4). It reads
   request lines with `read_line` until a bare `"\r\n"` line or end of stream.
2. It takes the first header whose lowercased text starts with
   `sec-websocket-key:`, and derives the accept token: Base64 (section 4 of
   RFC 4648) of SHA-1(key + `258EAFA5-E914-47DA-95CA-C5AB0DC85B11`).
3. It writes a fixed `101 Switching Protocols` reply carrying that token.
4. It connects to `127.0.0.1:22` and relays bytes both ways.

This project models that core as pure functions over strings:

- `Text`: Rust's `read_line` chunking, `str::lines`, ASCII `to_lowercase` and
  `trim`. Each comes with a characterisation: chunking and trimming are
  proved unique, and lines distribute over line boundaries.
- `Headers`: the header-reading loop.
- `KeyHeader`: the `find_map` key extraction.
- `Base64`: the standard-alphabet padded encoder and a canonical decoder,
  proved mutually inverse.
- `Accept`: the accept token, including the worked example of section 1.3 of
  RFC 6455.
- `Response`: the reply template and its inverse `AcceptOf`.
- `Port`: `get_port`, with the checked `u16` parse.
- `Handshake`: `websocket_handshake` and `handle_client`, with the network
  replaced by parameters.

SHA-1 is a parameter `sha1: string -> Digest` (any function to 20 bytes). The
client stream is modelled as `Inbound(data, end)`: the text the client sends,
then either end of stream or a read error. Whether the reply write, the
upstream connect and the relay succeed are boolean parameters.

End of stream before a blank line is not an error: `main.rs:56` leaves the
loop, and the text read so far is the request (`Headers.ReadHeaders`,
`Handshake.ReadRequest`).

## Model

| member | source | states |
|---|---|---|
| Text.LineEnd | RustyProxy/src/main.rs:55 | where one `read_line` call stops: just after the first '\n', or at end of input when there is none; `Text.Chunks` cuts each chunk there, and `Text.ChunksWellChunked` shows every such chunk is one `read_line` result |
| Text.Chunks | RustyProxy/src/main.rs:53-58 | the successive `read_line` results concatenate back to the input |
| Text.ChunksWellChunked | RustyProxy/src/main.rs:55 | every chunk `read_line` returns is one line piece, and every chunk except the last ends in '\n' |
| Text.ChunkingIsUnique | RustyProxy/src/main.rs:55 | any split into such line pieces that concatenates to the input is the `read_line` chunking |
| Text.ChunksAppend | RustyProxy/src/main.rs:55 | reading text that splits at a line boundary yields the chunks of each part in turn |
| Text.Lines | RustyProxy/src/main.rs:63 | `str::lines` gives one line per chunk, and no line contains '\n' |
| Text.StripLineEnding | RustyProxy/src/main.rs:63 | a line is its chunk minus its '\n', and minus the '\r' before it when there is one; a last chunk without '\n' is kept whole |
| Text.LinesAppend | RustyProxy/src/main.rs:63 | the lines of text split at a line boundary are the lines of each part in turn |
| Text.LinesCons | RustyProxy/src/main.rs:63 | a CRLF-terminated line ahead of more text is a line of its own |
| Text.IsWhitespace | RustyProxy/src/main.rs:66 | the characters `trim` removes: `char::is_whitespace` below 128 (space, and '\t' to '\r'); `Text.Trim` and `Text.TrimIsUnique` are stated over it |
| Text.Trim | RustyProxy/src/main.rs:66 | `trim` gives an infix with only whitespace on either side, and neither of its ends is whitespace |
| Text.TrimIsUnique | RustyProxy/src/main.rs:66 | any infix with whitespace-only surroundings and non-whitespace ends is exactly the trimmed text |
| Text.TrimKeepsCharacters | RustyProxy/src/main.rs:66 | trimming only removes characters and never introduces any |
| Text.ToLowerChar | RustyProxy/src/main.rs:65 | `to_lowercase` on one character: 'A' to 'Z' become 'a' to 'z', every other character is kept; `Text.ToLower` maps it over the line |
| Text.ToLower | RustyProxy/src/main.rs:65 | lowercasing keeps the length and maps each character on its own |
| Text.ToLowerAppend | RustyProxy/src/main.rs:65 | lowercasing distributes over concatenation |
| Headers.ReadChunks | RustyProxy/src/main.rs:53-60 | the loop over the successive `read_line` results, characterised by `Headers.ReadChunksStopsAt` |
| Headers.ReadChunksStopsAt | RustyProxy/src/main.rs:53-60 | the loop's request is the concatenation of the chunks before the first "\r\n" chunk, and it reports termination exactly when such a chunk exists |
| Headers.ReadHeaders | RustyProxy/src/main.rs:53-60 | the request read is a prefix of the input; when the loop stopped on a blank line, "\r\n" follows the request; otherwise the request is the whole input |
| Headers.BlankLineEndsRequest | RustyProxy/src/main.rs:56-57 | the first blank line after a line boundary ends the request, whatever follows it |
| Headers.UnterminatedTakesWholeInput | RustyProxy/src/main.rs:56-57 | with no blank chunk, the whole input is the request and end of input is not an error |
| Headers.BareNewlineDoesNotTerminate | RustyProxy/src/main.rs:56 | a bare "\n" line is kept as request text and does not end the loop |
| Headers.TerminatedIffBlankChunk | RustyProxy/src/main.rs:56 | the loop stops on a blank line exactly when some `read_line` chunk is "\r\n" |
| KeyHeader.IsKeyLine | RustyProxy/src/main.rs:65 | the `to_lowercase().starts_with("sec-websocket-key:")` test; `KeyHeader.KeyLineAnyCase` shows the header name matches in any letter case, and `KeyHeader.FindKeyFails` that a lookup fails exactly when no line passes it |
| KeyHeader.KeyValue | RustyProxy/src/main.rs:66 | `line[18..].trim()`: the key of a key line; `KeyHeader.FindKeyFindsFirst` makes it the lookup's result, `KeyHeader.KeyValueShape` bounds its characters and `KeyHeader.KeyLineAnyCase` makes it the trimmed text after the colon |
| KeyHeader.FindKey | RustyProxy/src/main.rs:64-71 | the `find_map` over the lines, characterised by `KeyHeader.FindKeyFindsFirst` and `KeyHeader.FindKeyFails` |
| KeyHeader.ExtractKey | RustyProxy/src/main.rs:63-71 | the key lookup over the `str::lines` split of the request, characterised by `KeyHeader.ExtractKeyIsFirstMatch` |
| KeyHeader.FindKeyFindsFirst | RustyProxy/src/main.rs:63-70 | `find_map` returns the trimmed value of the first key line |
| KeyHeader.FindKeyFails | RustyProxy/src/main.rs:63-71 | the lookup finds nothing exactly when no line is a key line |
| KeyHeader.FindKeySkips | RustyProxy/src/main.rs:63-70 | lines that are not key lines ahead of the rest do not change the lookup |
| KeyHeader.ExtractKeyIsFirstMatch | RustyProxy/src/main.rs:63-71 | a request yields a key exactly when one of its lines is a key line, and the key is that of the first such line |
| KeyHeader.KeyValueShape | RustyProxy/src/main.rs:66 | the key of a line without a line break holds no '\n' and never ends in '\r' |
| KeyHeader.ExtractedKeyShape | RustyProxy/src/main.rs:63-70 | a found key holds no '\n' and no trailing '\r', so a CRLF's '\r' never leaks into it |
| KeyHeader.KeyLineAnyCase | RustyProxy/src/main.rs:65-66 | `name:value` with the name "Sec-WebSocket-Key" in any letter case is a key line, and its key is the trimmed value |
| KeyHeader.FirstKeyLineWins | RustyProxy/src/main.rs:63-70 | after key-free lines, the first key line decides the key, whatever later lines say |
| Base64.CharOf | RustyProxy/src/main.rs:77 | every sextet maps to a character of the standard alphabet |
| Base64.ValueOf | RustyProxy/src/main.rs:77 | every alphabet character is the image of the sextet it decodes to |
| Base64.ValueOfCharOf | RustyProxy/src/main.rs:77 | the alphabet map is injective: decoding a sextet's character gives the sextet back |
| Base64.EncodeGroup | RustyProxy/src/main.rs:77 | one group of one to three bytes as four characters, shaped by `Base64.EncodeGroupShape` and inverted by `Base64.DecodeEncodeGroup` |
| Base64.EncodeGroupShape | RustyProxy/src/main.rs:77 | a group's first two characters are from the alphabet, and '=' stands exactly where the group falls short of three bytes |
| Base64.Encode | RustyProxy/src/main.rs:77 | the encoding is four characters for every started group of three bytes |
| Base64.EncodeShape | RustyProxy/src/main.rs:77 | the encoding is alphabet characters followed by exactly `(3 - n % 3) % 3` '=' characters |
| Base64.DecodeEncodeGroup | RustyProxy/src/main.rs:77 | every group of one to three bytes decodes back from its four characters |
| Base64.EncodeDecodeGroup | RustyProxy/src/main.rs:77 | every four characters that decode canonically are the encoding of what they decode to |
| Base64.EncodeCons | RustyProxy/src/main.rs:77 | a leading full group of three bytes encodes on its own, ahead of the rest |
| Base64.DecodeGroup | RustyProxy/src/main.rs:77 | the inverse of one group: only the canonical encoding of one to three bytes decodes; `Base64.EncodeDecodeGroup` and `Base64.DecodeEncodeGroup` tie it to `Base64.EncodeGroup` |
| Base64.Decode | RustyProxy/src/main.rs:77 | a text that decodes has the length the encoding of its bytes has; with `Base64.DecodeEncode` and `Base64.EncodeDecode` it is the exact inverse of `Base64.Encode` |
| Base64.DecodeEncode | RustyProxy/src/main.rs:77 | decoding the encoding of any bytes gives those bytes back |
| Base64.EncodeDecode | RustyProxy/src/main.rs:77 | any text that decodes is the encoding of what it decodes to |
| Base64.EncodeInjective | RustyProxy/src/main.rs:77 | distinct byte strings have distinct encodings |
| Accept.AcceptToken | RustyProxy/src/main.rs:74-77 | the token is 28 characters: 27 alphabet characters and one '=', decoding to the SHA-1 digest of the key followed by the GUID |
| Accept.AcceptTokenInjective | RustyProxy/src/main.rs:74-77 | two keys give the same token exactly when their digests agree |
| Accept.SampleAcceptToken | RustyProxy/src/main.rs:74-77 | with the digest RFC 6455 lists for its sample key, the token is "s3pPLMBiTxaQ9kYGzzhZRbK+xOo=" |
| Response.Reply | RustyProxy/src/main.rs:80-87 | the reply starts with the 101 status line and ends with an empty line |
| Response.AcceptOf | RustyProxy/src/main.rs:80-87 | the token a reply carries, if it has the reply's shape; `Response.AcceptOfReply` and `Response.ReplyOfAccept` make it the inverse of `Response.Reply` |
| Response.AcceptOfReply | RustyProxy/src/main.rs:80-87 | the token can be read back from the reply |
| Response.ReplyOfAccept | RustyProxy/src/main.rs:80-87 | every text the reader accepts is the reply for the token it reads |
| Response.ReplyInjective | RustyProxy/src/main.rs:80-87 | distinct tokens give distinct replies |
| Response.ReplyLines | RustyProxy/src/main.rs:80-87 | split into lines, the reply is the status line, the Upgrade, Connection and Sec-WebSocket-Accept headers, and an empty line |
| Response.ReplyLineBreaks | RustyProxy/src/main.rs:80-87 | when the token holds no line break, the reply holds exactly five '\n', each right after a '\r': five CRLFs and no bare line feed |
| Response.ReplyIsHeaderBlock | RustyProxy/src/main.rs:80-87 | the proxy's own header loop reads the reply as a complete header block, ending at its blank line |
| Port.Accumulate | RustyProxy/src/main.rs:98 | the digit loop of `u16::from_str` with its overflow check at every step, characterised by `Port.AccumulateValue` |
| Port.AccumulateValue | RustyProxy/src/main.rs:98 | from a start value within range, the loop gives the positional value of the digits exactly when all are digits and the value stays within 65535, and fails otherwise |
| Port.Unsigned | RustyProxy/src/main.rs:98 | the digits `parse::<u16>` reads: the text after one optional leading '+', or the whole text; `Port.ParseU16Value` states the parse over it |
| Port.ParseU16 | RustyProxy/src/main.rs:98 | `parse::<u16>`, characterised by `Port.ParseU16Value` |
| Port.ParseU16Value | RustyProxy/src/main.rs:98 | `parse::<u16>` succeeds exactly on an optional '+' then at least one digit with value at most 65535, and yields that value |
| Port.ParseU16InRange | RustyProxy/src/main.rs:98 | a parsed port is at most 65535 |
| Port.DecimalString | RustyProxy/src/main.rs:12 | the `{}` rendering of the port: a non-empty run of digits with no leading zero (it starts with '0' only when it is "0"), whose value is the port by `Port.DecimalStringValue` |
| Port.DecimalStringValue | RustyProxy/src/main.rs:12 | the decimal rendering of a number has that number as its digit value |
| Port.ParseDecimalString | RustyProxy/src/main.rs:12 | rendering a port in decimal and parsing it back gives the port |
| Port.ListenAddress | RustyProxy/src/main.rs:12 | the listen address starts with `[::]:` |
| Port.ListenAddressPort | RustyProxy/src/main.rs:12 | the port can be parsed back from the listen address |
| Port.FlagAt | RustyProxy/src/main.rs:96-97 | the loop acts at `i` exactly when `i` is in `1..args.len()`, `args[i]` is `--port` and another argument follows; `Port.LastFlagDecides` is stated over it, and `Port.ProgramNameIgnored` shows index 0 never counts |
| Port.LastFlagBelow | RustyProxy/src/main.rs:96-97 | the result is the last usable `--port` position below the bound, or none when there is none |
| Port.PortAt | RustyProxy/src/main.rs:98 | the port one flag sets: its value parsed, or 80 (`unwrap_or(80)`) |
| Port.PortSetting | RustyProxy/src/main.rs:93-101 | the port of the last usable `--port`, or 80; `Port.GetPort` computes it and `Port.LastFlagDecides`, `Port.NoFlagDefault` and `Port.UnparsableLastValue` characterise it |
| Port.GetPort | RustyProxy/src/main.rs:93-102 | the loop returns the setting of the last usable `--port` (80 when its value does not parse, 80 with no flag), always at most 65535 |
| Port.LastFlagDecides | RustyProxy/src/main.rs:96-99 | the last `--port` that has a value decides the port |
| Port.NoFlagDefault | RustyProxy/src/main.rs:95 | without a usable `--port` the port is 80 |
| Port.UnparsableLastValue | RustyProxy/src/main.rs:98 | a last `--port` value that does not parse gives 80, even if an earlier value did parse |
| Port.ProgramNameIgnored | RustyProxy/src/main.rs:96 | the program name never counts as an argument |
| Port.ParseU16Boundaries | RustyProxy/src/main.rs:98 | "+8080" parses; 65535 parses but 65536 does not; "", "+" and "-1" do not parse |
| Port.GetPortExamples | RustyProxy/src/main.rs:96-99 | a trailing `--port` without a value is ignored, and a `--port` in the program-name slot is ignored |
| Handshake.ReadRequest | RustyProxy/src/main.rs:53-60 | reading fails exactly when the stream errs before a blank line is read, and otherwise yields a prefix of what was sent |
| Handshake.PrepareReply | RustyProxy/src/main.rs:48-87 | read the request, look up the key, build the reply for its token; `Handshake.WebsocketHandshake` states its outcomes |
| Handshake.WebsocketHandshake | RustyProxy/src/main.rs:48-91 | each error arises exactly under its own cause (read, missing key, write); on success the reply carries a token that decodes to SHA-1(key + GUID) of the request's first key |
| Handshake.HandleClient | RustyProxy/src/main.rs:27-46 | the handshake, then the connect, then the relay, stopping at the first failure; characterised by `Handshake.HandleClientOrder` |
| Handshake.HandleClientOrder | RustyProxy/src/main.rs:27-46 | only 127.0.0.1:22 is dialled; it is dialled exactly after a successful handshake, and the relay runs exactly after a successful dial; the session succeeds exactly when all steps do; handshake errors are passed through; the reply write is attempted exactly when a reply was prepared, whether or not it succeeds; the actions come in strictly increasing `Handshake.Stage` (write, then connect, then relay), so each happens at most once and none precedes an earlier step |
| Handshake.TrailingDataIgnored | RustyProxy/src/main.rs:53-60 | what follows the blank line, and how the stream ends after it, never changes the handshake |
| Handshake.KeyedRequestAnswered | RustyProxy/src/main.rs:48-91 | a request with a key in its header block is answered with the reply for that key's token |
| Handshake.KeylessRequestRejected | RustyProxy/src/main.rs:56-71 | a request without a key line, read to end of stream or to a blank line (a read error after the blank line is never seen), fails with the missing-key error, whatever the write would do |

## Left out

- The relay itself is not modelled. `tokio::try_join!` of the two `tokio::io::copy` calls (main.rs:40-43) is one step, `Relayed`, whose outcome is a parameter.
- Binding, the accept loop and `tokio::spawn` are not modelled (main.rs:10-25). This covers concurrency between clients and logging errors per client. Only the listen address string is modelled.
- All `println!` logging is not modelled, because it has no effect on behaviour.
- SHA-1 is a parameter, not an implementation: it is a foreign library call.
- Reading from and writing to the socket is not modelled. It is replaced by the `Inbound` stream description and the `writeOk`, `connectOk` and `relayOk` parameters.
- A partial write before a write error is not modelled: the whole reply is either written or not.
- Bytes the `BufReader` had read ahead past the blank line are not modelled. In the code they are dropped with the reader and never reach the upstream.
- Reading command-line arguments (`env::args`) is not modelled. The arguments are a parameter of `Port.GetPort`.
- Text.ToLower: ASCII letters only. Rust's Unicode case mapping of other characters is left out, including mappings that change a character's byte length, such as the Kelvin sign.
- Text.Trim: whitespace is the ASCII part of Rust's `char::is_whitespace`: space and '\t' to '\r'. Unicode spaces above 127 are not trimmed.
- `read_line` rejecting invalid UTF-8 is not modelled. Strings are sequences of characters, so such input cannot be represented.
- The string index `line[18..]` is a byte index in Rust and a character index here. The two agree because the first 18 characters of a key line are ASCII under ASCII lowercasing.

=== FILE: accept.dfy ===
/** The `Sec-WebSocket-Accept` value of section 1.3 and section 4.2.2 of
    RFC 6455: the base64 encoding of the SHA-1 digest of the key followed by
    the protocol's fixed GUID. SHA-1 itself is a parameter: any function from
    text to a 20-byte digest. */
module Accept {
  import opened Wrappers
  import opened Base64

  /** The GUID appended to the key before hashing. */
  const WebSocketGuid: string := "258EAFA5-E914-47DA-95CA-C5AB0DC85B11"

  /** A SHA-1 digest: 20 bytes. */
  type Digest = d: seq<Byte> | |d| == 20 witness seq(20, _ => 0)

  /** The accept token for `key`: base64 of SHA-1 of the key and the GUID.
      It is 28 characters long, 27 alphabet characters and one '=', and it
      decodes back to exactly the digest. */
  function AcceptToken(sha1: string -> Digest, key: string): (token: string)
    ensures |token| == 28
    ensures forall i :: 0 <= i < 27 ==> IsAlphabetChar(token[i])
    ensures token[27] == Pad
    ensures Decode(token) == Some(sha1(key + WebSocketGuid))
  {
    var digest := sha1(key + WebSocketGuid);
    var token := Encode(digest);
    assert |token| == 28 && PadCount(|digest|) == 1;
    EncodeShape(digest);
    DecodeEncode(digest);
    token
  }

  /** Two keys get the same token exactly when their hashed inputs have the
      same digest. */
  lemma AcceptTokenInjective(sha1: string -> Digest, k1: string, k2: string)
    ensures AcceptToken(sha1, k1) == AcceptToken(sha1, k2) <==> sha1(k1 + WebSocketGuid) == sha1(k2 + WebSocketGuid)
  {
    EncodeInjective(sha1(k1 + WebSocketGuid), sha1(k2 + WebSocketGuid));
  }

  /** The key of the sample handshake in section 1.3 of RFC 6455. */
  const SampleKey: string := "dGhlIHNhbXBsZSBub25jZQ=="

  /** The SHA-1 digest of the sample key and the GUID, as the RFC lists it. */
  const SampleDigest: Digest := [0xb3, 0x7a, 0x4f, 0x2c, 0xc0, 0x62, 0x4f, 0x16, 0x90, 0xf6,
                                 0x46, 0x06, 0xcf, 0x38, 0x59, 0x45, 0xb2, 0xbe, 0xc4, 0xea]

  /** The accept token the RFC gives for the sample key. */
  const SampleToken: string := "s3pPLMBiTxaQ9kYGzzhZRbK+xOo="

  /** A three-byte group encodes to the characters of its four sextets. */
  lemma SampleChars(b0: Byte, b1: Byte, b2: Byte, v0: Sextet, v1: Sextet, v2: Sextet, v3: Sextet)
    requires v0 == b0 / 4 && v1 == (b0 % 4) * 16 + b1 / 16 && v2 == (b1 % 16) * 4 + b2 / 64 && v3 == b2 % 64
    ensures EncodeGroup([b0, b1, b2]) == [CharOf(v0), CharOf(v1), CharOf(v2), CharOf(v3)]
  {
    EncodeThree(b0, b1, b2);
  }

  /** The groups of the sample digest and their encodings. */
  lemma SampleGroup1() ensures EncodeGroup([0xb3, 0x7a, 0x4f]) == "s3pP" {
    SampleChars(0xb3, 0x7a, 0x4f, 44, 55, 41, 15);
    assert CharOf(44) == 's' && CharOf(55) == '3' && CharOf(41) == 'p' && CharOf(15) == 'P';
  }
  lemma SampleGroup2() ensures EncodeGroup([0x2c, 0xc0, 0x62]) == "LMBi" {
    SampleChars(0x2c, 0xc0, 0x62, 11, 12, 1, 34);
    assert CharOf(11) == 'L' && CharOf(12) == 'M' && CharOf(1) == 'B' && CharOf(34) == 'i';
  }
  lemma SampleGroup3() ensures EncodeGroup([0x4f, 0x16, 0x90]) == "TxaQ" {
    SampleChars(0x4f, 0x16, 0x90, 19, 49, 26, 16);
    assert CharOf(19) == 'T' && CharOf(49) == 'x' && CharOf(26) == 'a' && CharOf(16) == 'Q';
  }
  lemma SampleGroup4() ensures EncodeGroup([0xf6, 0x46, 0x06]) == "9kYG" {
    SampleChars(0xf6, 0x46, 0x06, 61, 36, 24, 6);
    assert CharOf(61) == '9' && CharOf(36) == 'k' && CharOf(24) == 'Y' && CharOf(6) == 'G';
  }
  lemma SampleGroup5() ensures EncodeGroup([0xcf, 0x38, 0x59]) == "zzhZ" {
    SampleChars(0xcf, 0x38, 0x59, 51, 51, 33, 25);
    assert CharOf(51) == 'z' && CharOf(33) == 'h' && CharOf(25) == 'Z';
  }
  lemma SampleGroup6() ensures EncodeGroup([0x45, 0xb2, 0xbe]) == "RbK+" {
    SampleChars(0x45, 0xb2, 0xbe, 17, 27, 10, 62);
    assert CharOf(17) == 'R' && CharOf(27) == 'b' && CharOf(10) == 'K' && CharOf(62) == '+';
  }
  lemma SampleGroup7() ensures Encode([0xc4, 0xea]) == "xOo=" {}

  /** The sample digest split into its groups of three bytes. */
  lemma SampleDigestGroups()
    ensures SampleDigest == [0xb3, 0x7a, 0x4f] + ([0x2c, 0xc0, 0x62] + ([0x4f, 0x16, 0x90] + ([0xf6, 0x46, 0x06]
                          + ([0xcf, 0x38, 0x59] + ([0x45, 0xb2, 0xbe] + [0xc4, 0xea])))))
  {
  }

  /** The sample token split into the encodings of those groups. */
  lemma SampleTokenGroups()
    ensures SampleToken == "s3pP" + ("LMBi" + ("TxaQ" + ("9kYG" + ("zzhZ" + ("RbK+" + "xOo=")))))
  {
  }

  /** The worked example of section 1.3 of RFC 6455: with a SHA-1 that maps
      the sample key and GUID to the digest the RFC lists, the token is the
      one the RFC gives. */
  lemma SampleAcceptToken(sha1: string -> Digest)
    requires sha1(SampleKey + WebSocketGuid) == SampleDigest
    ensures AcceptToken(sha1, SampleKey) == SampleToken
  {
    var g1: seq<Byte>, g2: seq<Byte>, g3: seq<Byte> := [0xb3, 0x7a, 0x4f], [0x2c, 0xc0, 0x62], [0x4f, 0x16, 0x90];
    var g4: seq<Byte>, g5: seq<Byte>, g6: seq<Byte> := [0xf6, 0x46, 0x06], [0xcf, 0x38, 0x59], [0x45, 0xb2, 0xbe];
    var g7: seq<Byte> := [0xc4, 0xea];
    SampleGroup1();
    SampleGroup2();
    SampleGroup3();
    SampleGroup4();
    SampleGroup5();
    SampleGroup6();
    SampleGroup7();
    EncodeCons(g6, g7);
    EncodeCons(g5, g6 + g7);
    EncodeCons(g4, g5 + (g6 + g7));
    EncodeCons(g3, g4 + (g5 + (g6 + g7)));
    EncodeCons(g2, g3 + (g4 + (g5 + (g6 + g7))));
    EncodeCons(g1, g2 + (g3 + (g4 + (g5 + (g6 + g7)))));
    SampleDigestGroups();
    SampleTokenGroups();
  }
}

=== FILE: base64.dfy ===
/** Base64 encoding with the standard alphabet and '=' padding, as in
    section 4 of RFC 4648, over byte sequences. Decoding is the inverse used
    to state what an encoding carries; it accepts only canonical encodings
    (padding bits zero). */
module Base64 {
  import opened Wrappers

  /** An octet. */
  type Byte = x: int | 0 <= x < 256

  /** A 6-bit value, the unit one base64 character encodes. */
  type Sextet = x: int | 0 <= x < 64

  /** The padding character. */
  const Pad: char := '='

  /** True iff `c` is one of the 64 alphabet characters. */
  predicate IsAlphabetChar(c: char) {
    ('A' <= c <= 'Z') || ('a' <= c <= 'z') || ('0' <= c <= '9') || c == '+' || c == '/'
  }

  /** The character that encodes the 6-bit value `v`. */
  function CharOf(v: Sextet): (c: char)
    ensures IsAlphabetChar(c)
  {
    if v < 26 then ('A' as int + v) as char
    else if v < 52 then ('a' as int + (v - 26)) as char
    else if v < 62 then ('0' as int + (v - 52)) as char
    else if v == 62 then '+'
    else '/'
  }

  /** The 6-bit value an alphabet character encodes. */
  function ValueOf(c: char): (v: Sextet)
    requires IsAlphabetChar(c)
    ensures CharOf(v) == c
  {
    if 'A' <= c <= 'Z' then c as int - 'A' as int
    else if 'a' <= c <= 'z' then c as int - 'a' as int + 26
    else if '0' <= c <= '9' then c as int - '0' as int + 52
    else if c == '+' then 62
    else 63
  }

  /** Decoding a character undoes encoding its value. */
  lemma ValueOfCharOf(v: Sextet)
    ensures ValueOf(CharOf(v)) == v
  {
  }

  /** The encoding of one group of one to three bytes: the group's bits
      cut into 6-bit values, high bits first, the last one filled with zero
      bits; then one '=' for each byte missing from the group. */
  function EncodeGroup(g: seq<Byte>): (q: string)
    requires 1 <= |g| <= 3
    ensures |q| == 4
  {
    var b0 := g[0];
    var b1 := if |g| > 1 then g[1] else 0;
    var b2 := if |g| > 2 then g[2] else 0;
    var c0 := CharOf(b0 / 4);
    var c1 := CharOf((b0 % 4) * 16 + b1 / 16);
    var c2 := if |g| > 1 then CharOf((b1 % 16) * 4 + b2 / 64) else Pad;
    var c3 := if |g| > 2 then CharOf(b2 % 64) else Pad;
    [c0, c1, c2, c3]
  }

  /** A group of one to three bytes encodes to two alphabet characters,
      then an alphabet character or '=' for the second byte, then one for
      the third: '=' exactly where the group falls short. */
  lemma EncodeGroupShape(g: seq<Byte>)
    requires 1 <= |g| <= 3
    ensures var q := EncodeGroup(g);
      && IsAlphabetChar(q[0]) && IsAlphabetChar(q[1])
      && (q[2] == Pad <==> |g| == 1) && (q[2] != Pad ==> IsAlphabetChar(q[2]))
      && (q[3] == Pad <==> |g| < 3) && (q[3] != Pad ==> IsAlphabetChar(q[3]))
  {
  }

  /** Number of '=' characters ending the encoding of `n` bytes. */
  function PadCount(n: nat): nat {
    (3 - n % 3) % 3
  }

  /** Three more bytes need the same padding, and never more than two '='. */
  lemma PadCountStep(n: nat)
    requires n >= 3
    ensures PadCount(n) == PadCount(n - 3) <= 2
  {
    assert n % 3 == (n - 3) % 3;
  }

  /** Base64 encoding of a byte sequence, three bytes at a time: four
      characters per started group of three bytes. */
  function Encode(b: seq<Byte>): (s: string)
    ensures |s| == 4 * ((|b| + 2) / 3)
    decreases |b|
  {
    if |b| == 0 then []
    else if |b| <= 3 then EncodeGroup(b)
    else
      assert (|b| + 2) / 3 == (|b| - 3 + 2) / 3 + 1;
      EncodeGroup(b[..3]) + Encode(b[3..])
  }

  /** A group of four alphabet characters in front of text that is
      alphabet characters and then `p` '=' characters keeps that shape. */
  lemma ShapeAfterFullGroup(head: string, tail: string, p: nat)
    requires |head| == 4 && forall i :: 0 <= i < 4 ==> IsAlphabetChar(head[i])
    requires p <= |tail|
    requires forall i :: 0 <= i < |tail| - p ==> IsAlphabetChar(tail[i])
    requires forall i :: |tail| - p <= i < |tail| ==> tail[i] == Pad
    ensures forall i :: 0 <= i < |head + tail| - p ==> IsAlphabetChar((head + tail)[i])
    ensures forall i :: |head + tail| - p <= i < |head + tail| ==> (head + tail)[i] == Pad
  {
    assert forall i :: 0 <= i < 4 ==> (head + tail)[i] == head[i];
    assert forall i :: 4 <= i < |head + tail| ==> (head + tail)[i] == tail[i - 4];
  }

  /** The encoding of one to three bytes is one group of that shape. */
  lemma ShortShape(b: seq<Byte>)
    requires 1 <= |b| <= 3
    ensures forall i :: 0 <= i < |Encode(b)| - PadCount(|b|) ==> IsAlphabetChar(Encode(b)[i])
    ensures forall i :: |Encode(b)| - PadCount(|b|) <= i < |Encode(b)| ==> Encode(b)[i] == Pad
  {
    var q := Encode(b);
    assert q == EncodeGroup(b);
    EncodeGroupShape(b);
    assert PadCount(|b|) == 3 - |b|;
  }

  /** The encoding is alphabet characters followed by `PadCount(|b|)` '='
      characters. */
  lemma {:induction false} EncodeShape(b: seq<Byte>)
    ensures forall i :: 0 <= i < |Encode(b)| - PadCount(|b|) ==> IsAlphabetChar(Encode(b)[i])
    ensures forall i :: |Encode(b)| - PadCount(|b|) <= i < |Encode(b)| ==> Encode(b)[i] == Pad
    decreases |b|
  {
    if |b| == 0 {
    } else if |b| <= 3 {
      ShortShape(b);
    } else {
      var head, tail := EncodeGroup(b[..3]), Encode(b[3..]);
      assert Encode(b) == head + tail;
      EncodeGroupShape(b[..3]);
      EncodeShape(b[3..]);
      PadCountStep(|b|);
      ShapeAfterFullGroup(head, tail, PadCount(|b|));
    }
  }

  /** Decoding of one four-character group: `None` unless it is the
      canonical encoding of one to three bytes (the filler bits are zero). */
  function DecodeGroup(q: string): (r: Option<seq<Byte>>)
    requires |q| == 4
  {
    if !IsAlphabetChar(q[0]) || !IsAlphabetChar(q[1]) then None
    else
      var v0: int, v1: int := ValueOf(q[0]), ValueOf(q[1]);
      var b0: Byte := v0 * 4 + v1 / 16;
      if q[2] == Pad then
        if q[3] == Pad && v1 % 16 == 0 then Some([b0]) else None
      else if !IsAlphabetChar(q[2]) then None
      else
        var v2 := ValueOf(q[2]);
        var b1: Byte := (v1 % 16) * 16 + v2 / 4;
        if q[3] == Pad then
          if v2 % 4 == 0 then Some([b0, b1]) else None
        else if !IsAlphabetChar(q[3]) then None
        else
          var v3 := ValueOf(q[3]);
          Some([b0, b1, (v2 % 4) * 64 + v3])
  }

  /** Decoding of a whole string: groups of four, where only the last group
      may carry padding. */
  function Decode(s: string): (r: Option<seq<Byte>>)
    ensures r.Some? ==> |s| == 4 * ((|r.value| + 2) / 3)
    decreases |s|
  {
    if |s| == 0 then Some([])
    else if |s| < 4 then None
    else if |s| == 4 then DecodeGroup(s)
    else
      match DecodeGroup(s[..4])
      case None => None
      case Some(g) =>
        if |g| != 3 then None
        else
          match Decode(s[4..])
          case None => None
          case Some(rest) => Some(g + rest)
  }

  /** The 6-bit values cut from three bytes join back into those bytes. */
  lemma SextetsJoin(b0: Byte, b1: Byte, b2: Byte)
    ensures var v0, v1, v2, v3 := b0 / 4, (b0 % 4) * 16 + b1 / 16, (b1 % 16) * 4 + b2 / 64, b2 % 64;
      && v0 * 4 + v1 / 16 == b0
      && (v1 % 16) * 16 + v2 / 4 == b1
      && (v2 % 4) * 64 + v3 == b2
      && v1 % 16 == b1 / 16
      && v2 % 4 == b2 / 64
  {
    JoinSplit(b0 % 4, b1 / 16, 16);
    JoinSplit(b1 % 16, b2 / 64, 4);
  }

  /** The characters a one-byte group encodes to. */
  lemma EncodeOne(b0: Byte)
    ensures EncodeGroup([b0]) == [CharOf(b0 / 4), CharOf((b0 % 4) * 16), Pad, Pad]
  {
  }

  /** The characters a two-byte group encodes to. */
  lemma EncodeTwo(b0: Byte, b1: Byte)
    ensures EncodeGroup([b0, b1]) == [CharOf(b0 / 4), CharOf((b0 % 4) * 16 + b1 / 16), CharOf((b1 % 16) * 4), Pad]
  {
  }

  /** The characters a three-byte group encodes to. */
  lemma EncodeThree(b0: Byte, b1: Byte, b2: Byte)
    ensures EncodeGroup([b0, b1, b2])
         == [CharOf(b0 / 4), CharOf((b0 % 4) * 16 + b1 / 16), CharOf((b1 % 16) * 4 + b2 / 64), CharOf(b2 % 64)]
  {
  }

  /** Two characters and two '=' decode to one byte when the filler bits are zero. */
  lemma DecodeTwoChars(v0: Sextet, v1: Sextet)
    requires v1 % 16 == 0
    ensures DecodeGroup([CharOf(v0), CharOf(v1), Pad, Pad]) == Some([v0 * 4 + v1 / 16])
  {
    ValueOfCharOf(v0);
    ValueOfCharOf(v1);
  }

  /** Three characters and one '=' decode to two bytes when the filler bits are zero. */
  lemma DecodeThreeChars(v0: Sextet, v1: Sextet, v2: Sextet)
    requires v2 % 4 == 0
    ensures DecodeGroup([CharOf(v0), CharOf(v1), CharOf(v2), Pad]) == Some([v0 * 4 + v1 / 16, (v1 % 16) * 16 + v2 / 4])
  {
    ValueOfCharOf(v0);
    ValueOfCharOf(v1);
    ValueOfCharOf(v2);
  }

  /** Four characters decode to the three bytes their values make up. */
  lemma DecodeFourChars(v0: Sextet, v1: Sextet, v2: Sextet, v3: Sextet)
    ensures DecodeGroup([CharOf(v0), CharOf(v1), CharOf(v2), CharOf(v3)])
         == Some([v0 * 4 + v1 / 16, (v1 % 16) * 16 + v2 / 4, (v2 % 4) * 64 + v3])
  {
    ValueOfCharOf(v0);
    ValueOfCharOf(v1);
    ValueOfCharOf(v2);
    ValueOfCharOf(v3);
  }

  /** A one-byte group decodes back to its byte. */
  lemma DecodeEncodeOne(b0: Byte)
    ensures DecodeGroup(EncodeGroup([b0])) == Some([b0])
  {
    SextetsJoin(b0, 0, 0);
    EncodeOne(b0);
    DecodeTwoChars(b0 / 4, (b0 % 4) * 16);
  }

  /** A two-byte group decodes back to its bytes. */
  lemma DecodeEncodeTwo(b0: Byte, b1: Byte)
    ensures DecodeGroup(EncodeGroup([b0, b1])) == Some([b0, b1])
  {
    SextetsJoin(b0, b1, 0);
    EncodeTwo(b0, b1);
    DecodeThreeChars(b0 / 4, (b0 % 4) * 16 + b1 / 16, (b1 % 16) * 4);
  }

  /** A three-byte group decodes back to its bytes. */
  lemma DecodeEncodeThree(b0: Byte, b1: Byte, b2: Byte)
    ensures DecodeGroup(EncodeGroup([b0, b1, b2])) == Some([b0, b1, b2])
  {
    var v0: Sextet, v1: Sextet := b0 / 4, (b0 % 4) * 16 + b1 / 16;
    var v2: Sextet, v3: Sextet := (b1 % 16) * 4 + b2 / 64, b2 % 64;
    EncodeThree(b0, b1, b2);
    assert EncodeGroup([b0, b1, b2]) == [CharOf(v0), CharOf(v1), CharOf(v2), CharOf(v3)];
    DecodeFourChars(v0, v1, v2, v3);
    SextetsJoin(b0, b1, b2);
    var c0, c1, c2 := v0 * 4 + v1 / 16, (v1 % 16) * 16 + v2 / 4, (v2 % 4) * 64 + v3;
    assert c0 == b0 && c1 == b1 && c2 == b2;
  }

  /** A leading full group encodes on its own, ahead of the rest. */
  lemma EncodeCons(g: seq<Byte>, rest: seq<Byte>)
    requires |g| == 3
    ensures Encode(g + rest) == EncodeGroup(g) + Encode(rest)
  {
    if |rest| > 0 {
      assert (g + rest)[..3] == g && (g + rest)[3..] == rest;
    } else {
      assert g + rest == g;
    }
  }

  /** Decoding a group undoes encoding it. */
  lemma DecodeEncodeGroup(g: seq<Byte>)
    requires 1 <= |g| <= 3
    ensures DecodeGroup(EncodeGroup(g)) == Some(g)
  {
    if |g| == 1 {
      assert g == [g[0]];
      DecodeEncodeOne(g[0]);
    } else if |g| == 2 {
      assert g == [g[0], g[1]];
      DecodeEncodeTwo(g[0], g[1]);
    } else {
      assert g == [g[0], g[1], g[2]];
      DecodeEncodeThree(g[0], g[1], g[2]);
    }
  }

  /** Splitting a byte at a 6-bit value's boundaries and joining the parts. */
  lemma JoinSplit(hi: int, lo: int, d: int)
    requires d == 4 || d == 16 || d == 64
    requires 0 <= lo < d
    ensures (hi * d + lo) / d == hi && (hi * d + lo) % d == lo
  {
  }

  /** The first byte a group decodes to, split back into its 6-bit values. */
  lemma FirstByteSplit(v0: Sextet, v1: Sextet)
    ensures (v0 * 4 + v1 / 16) / 4 == v0
    ensures ((v0 * 4 + v1 / 16) % 4) * 16 + v1 % 16 == v1
  {
    JoinSplit(v0, v1 / 16, 4);
    JoinSplit(v1 / 16, v1 % 16, 16);
  }

  /** The second byte a group decodes to, split back into its 6-bit values. */
  lemma SecondByteSplit(v1: Sextet, v2: Sextet)
    ensures ((v1 % 16) * 16 + v2 / 4) / 16 == v1 % 16
    ensures (((v1 % 16) * 16 + v2 / 4) % 16) * 4 + v2 % 4 == v2
  {
    JoinSplit(v1 % 16, v2 / 4, 16);
    JoinSplit(v2 / 4, v2 % 4, 4);
  }

  /** The third byte a group decodes to, split back into its 6-bit values. */
  lemma ThirdByteSplit(v2: Sextet, v3: Sextet)
    ensures ((v2 % 4) * 64 + v3) / 64 == v2 % 4
    ensures ((v2 % 4) * 64 + v3) % 64 == v3
  {
    JoinSplit(v2 % 4, v3, 64);
  }

  /** A group with two '=' decodes to one byte and re-encodes to itself. */
  lemma EncodeDecodeGroup1(q: string)
    requires |q| == 4 && DecodeGroup(q).Some? && q[2] == Pad
    ensures EncodeGroup(DecodeGroup(q).value) == q && |DecodeGroup(q).value| == 1
  {
    var v0: int, v1: int := ValueOf(q[0]), ValueOf(q[1]);
    FirstByteSplit(v0, v1);
    var b0: Byte := v0 * 4 + v1 / 16;
    assert DecodeGroup(q).value == [b0];
  }

  /** A group with one '=' decodes to two bytes and re-encodes to itself. */
  lemma EncodeDecodeGroup2(q: string)
    requires |q| == 4 && DecodeGroup(q).Some? && q[2] != Pad && q[3] == Pad
    ensures EncodeGroup(DecodeGroup(q).value) == q && |DecodeGroup(q).value| == 2
  {
    var v0: int, v1: int, v2: int := ValueOf(q[0]), ValueOf(q[1]), ValueOf(q[2]);
    FirstByteSplit(v0, v1);
    SecondByteSplit(v1, v2);
    var b0: Byte, b1: Byte := v0 * 4 + v1 / 16, (v1 % 16) * 16 + v2 / 4;
    assert DecodeGroup(q).value == [b0, b1];
  }

  /** A group without '=' decodes to three bytes and re-encodes to itself. */
  lemma EncodeDecodeGroup3(q: string)
    requires |q| == 4 && DecodeGroup(q).Some? && q[2] != Pad && q[3] != Pad
    ensures EncodeGroup(DecodeGroup(q).value) == q && |DecodeGroup(q).value| == 3
  {
    var v0: int, v1: int, v2: int, v3: int := ValueOf(q[0]), ValueOf(q[1]), ValueOf(q[2]), ValueOf(q[3]);
    FirstByteSplit(v0, v1);
    SecondByteSplit(v1, v2);
    ThirdByteSplit(v2, v3);
    var b0: Byte, b1: Byte, b2: Byte := v0 * 4 + v1 / 16, (v1 % 16) * 16 + v2 / 4, (v2 % 4) * 64 + v3;
    assert DecodeGroup(q).value == [b0, b1, b2];
  }

  /** Encoding the bytes a group decodes to gives the group back; the group
      carries three bytes exactly when it has no padding. */
  lemma EncodeDecodeGroup(q: string)
    requires |q| == 4 && DecodeGroup(q).Some?
    ensures 1 <= |DecodeGroup(q).value| <= 3
    ensures EncodeGroup(DecodeGroup(q).value) == q
    ensures |DecodeGroup(q).value| == 3 <==> q[3] != Pad
  {
    if q[2] == Pad {
      EncodeDecodeGroup1(q);
    } else if q[3] == Pad {
      EncodeDecodeGroup2(q);
    } else {
      EncodeDecodeGroup3(q);
    }
  }

  /** Decoding undoes encoding. */
  lemma {:induction false} DecodeEncode(b: seq<Byte>)
    ensures Decode(Encode(b)) == Some(b)
    decreases |b|
  {
    if |b| == 0 {
    } else if |b| <= 3 {
      DecodeEncodeGroup(b);
    } else {
      var s := Encode(b);
      var head := EncodeGroup(b[..3]);
      assert s == head + Encode(b[3..]);
      assert s[..4] == head && s[4..] == Encode(b[3..]);
      DecodeEncodeGroup(b[..3]);
      DecodeEncode(b[3..]);
      assert b == b[..3] + b[3..];
    }
  }

  /** Encoding undoes decoding: only canonical encodings decode, so every
      string that decodes is the encoding of what it decodes to. */
  lemma {:induction false} EncodeDecode(s: string)
    requires Decode(s).Some?
    ensures Encode(Decode(s).value) == s
    decreases |s|
  {
    if |s| == 0 {
    } else if |s| == 4 {
      EncodeDecodeGroup(s);
    } else {
      var g := DecodeGroup(s[..4]).value;
      var rest := Decode(s[4..]).value;
      EncodeDecodeGroup(s[..4]);
      EncodeDecode(s[4..]);
      var b := g + rest;
      assert b[..3] == g && b[3..] == rest;
      assert s == s[..4] + s[4..];
    }
  }

  /** Encoding is injective: different byte sequences never share an encoding. */
  lemma EncodeInjective(a: seq<Byte>, b: seq<Byte>)
    ensures Encode(a) == Encode(b) <==> a == b
  {
    DecodeEncode(a);
    DecodeEncode(b);
  }
}

=== FILE: handshake.dfy ===
/** `websocket_handshake` and `handle_client`: read the request headers,
    find the key, write the 101 reply, then connect to the fixed upstream
    and relay. The network is replaced by parameters: what the client sends
    and how its stream ends, whether the reply write succeeds, whether the
    upstream connect succeeds and whether the relay ends without error. */
module Handshake {
  import opened Wrappers
  import opened Text
  import opened Headers
  import opened KeyHeader
  import opened Base64
  import opened Accept
  import opened Response

  /** How the client's stream ends after the data it sends. */
  datatype ReadEnd = Eof | ReadError

  /** Everything `read_line` can see on the client stream: the text the
      client sends, then end of stream or a read error. */
  datatype Inbound = Inbound(data: string, end: ReadEnd)

  /** Why a handshake fails. */
  datatype HandshakeError = ReadFailed | MissingKey | WriteFailed

  /** The upstream every accepted client is relayed to. */
  const ServerAddr: string := "127.0.0.1:22"

  /** The header loop on a stream: the accumulated request, unless a read
      error comes before a blank line does. A read error after the blank
      line is never seen, and end of stream before it is not an error. */
  function ReadRequest(inbound: Inbound): (r: Result<string, HandshakeError>)
    ensures r.Failure? <==> inbound.end == ReadError && BlankLine !in Chunks(inbound.data)
    ensures r.Failure? ==> r.error == ReadFailed
    ensures r.Success? ==> r.value <= inbound.data
  {
    var h := ReadHeaders(inbound.data);
    TerminatedIffBlankChunk(inbound.data);
    if !h.terminated && inbound.end == ReadError then Failure(ReadFailed)
    else Success(h.request)
  }

  /** The reply the handshake would write: read the request, take the key
      of its first key line, and answer with the accept token of that key. */
  function PrepareReply(sha1: string -> Digest, inbound: Inbound): (r: Result<string, HandshakeError>)
  {
    match ReadRequest(inbound)
    case Failure(e) => Failure(e)
    case Success(request) =>
      match ExtractKey(request)
      case None => Failure(MissingKey)
      case Some(key) => Success(Reply(AcceptToken(sha1, key)))
  }

  /** `websocket_handshake`: the prepared reply, written to the client. It
      fails with `ReadFailed` exactly when the stream errs before a blank
      line, with `MissingKey` exactly when the request read holds no key
      line, and with `WriteFailed` exactly when all went well up to the
      write and the write fails. On success the reply carries a token that
      decodes to the SHA-1 digest of the request's key and the GUID. */
  function WebsocketHandshake(sha1: string -> Digest, inbound: Inbound, writeOk: bool): (r: Result<string, HandshakeError>)
    ensures r == Failure(ReadFailed) <==> ReadRequest(inbound).Failure?
    ensures r == Failure(MissingKey) <==> ReadRequest(inbound).Success? && ExtractKey(ReadRequest(inbound).value).None?
    ensures r == Failure(WriteFailed) <==> PrepareReply(sha1, inbound).Success? && !writeOk
    ensures r.Success? ==> writeOk && ReadRequest(inbound).Success? && ExtractKey(ReadRequest(inbound).value).Some?
    ensures r.Success? ==> AcceptOf(r.value).Some?
    ensures r.Success? ==> Decode(AcceptOf(r.value).value) == Some(sha1(ExtractKey(ReadRequest(inbound).value).value + WebSocketGuid))
  {
    match PrepareReply(sha1, inbound)
    case Failure(e) => Failure(e)
    case Success(reply) =>
      if !writeOk then Failure(WriteFailed)
      else
        var token := AcceptToken(sha1, ExtractKey(ReadRequest(inbound).value).value);
        AcceptOfReply(token);
        Success(reply)
  }

  /** What the client handler does, in order. `WriteAttempted` records the
      call that writes the reply, whether or not the write succeeds. */
  datatype Action = WriteAttempted(text: string) | Dialed(addr: string) | Relayed

  /** The step of the handler an action belongs to: the reply write comes
      first, then the connect, then the relay. */
  function Stage(a: Action): nat {
    match a
    case WriteAttempted(_) => 0
    case Dialed(_) => 1
    case Relayed => 2
  }

  /** Why the client handler ends with an error. */
  datatype ClientError = HandshakeFailed(cause: HandshakeError) | ConnectFailed | RelayFailed

  /** The actions taken and the handler's result. */
  datatype Session = Session(actions: seq<Action>, result: Result<(), ClientError>)

  /** `handle_client`: the handshake, then a connect to the upstream, then
      the two-way relay; the first failure ends the session. */
  function HandleClient(sha1: string -> Digest, inbound: Inbound, writeOk: bool, connectOk: bool, relayOk: bool): (s: Session)
  {
    match PrepareReply(sha1, inbound)
    case Failure(e) => Session([], Failure(HandshakeFailed(e)))
    case Success(reply) =>
      if !writeOk then Session([WriteAttempted(reply)], Failure(HandshakeFailed(WriteFailed)))
      else if !connectOk then Session([WriteAttempted(reply), Dialed(ServerAddr)], Failure(ConnectFailed))
      else Session([WriteAttempted(reply), Dialed(ServerAddr), Relayed], if relayOk then Success(()) else Failure(RelayFailed))
  }

  /** The handler's actions come in strictly increasing stage. */
  lemma HandleClientStaged(sha1: string -> Digest, inbound: Inbound, writeOk: bool, connectOk: bool, relayOk: bool)
    ensures var s := HandleClient(sha1, inbound, writeOk, connectOk, relayOk);
      forall i, j :: 0 <= i < j < |s.actions| ==> Stage(s.actions[i]) < Stage(s.actions[j])
  {
    var s := HandleClient(sha1, inbound, writeOk, connectOk, relayOk);
    match PrepareReply(sha1, inbound)
    case Failure(e) =>
      assert s.actions == [];
    case Success(reply) =>
      if !writeOk {
        assert s.actions == [WriteAttempted(reply)];
      } else if !connectOk {
        assert s.actions == [WriteAttempted(reply), Dialed(ServerAddr)];
      } else {
        assert s.actions == [WriteAttempted(reply), Dialed(ServerAddr), Relayed];
      }
  }

  /** The handler only ever dials the fixed upstream, dials it only after a
      complete handshake, relays only after a successful dial, and reports a
      failed handshake as such, having sent nothing more than the reply. Its
      actions come in strictly increasing stage, so each happens at most once
      and never before an action of an earlier step. */
  lemma HandleClientOrder(sha1: string -> Digest, inbound: Inbound, writeOk: bool, connectOk: bool, relayOk: bool)
    ensures var s := HandleClient(sha1, inbound, writeOk, connectOk, relayOk);
      && (forall a :: a in s.actions && a.Dialed? ==> a.addr == ServerAddr)
      && (Dialed(ServerAddr) in s.actions <==> WebsocketHandshake(sha1, inbound, writeOk).Success?)
      && (Relayed in s.actions <==> WebsocketHandshake(sha1, inbound, writeOk).Success? && connectOk)
      && (s.result.Success? <==> WebsocketHandshake(sha1, inbound, writeOk).Success? && connectOk && relayOk)
      && (forall e :: s.result == Failure(HandshakeFailed(e)) <==> WebsocketHandshake(sha1, inbound, writeOk) == Failure(e))
      && (forall t :: WriteAttempted(t) in s.actions <==> PrepareReply(sha1, inbound) == Success(t))
      && (forall i, j :: 0 <= i < j < |s.actions| ==> Stage(s.actions[i]) < Stage(s.actions[j]))
  {
    HandleClientStaged(sha1, inbound, writeOk, connectOk, relayOk);
  }

  /** Whatever the client sends after the blank line, and however its
      stream ends, does not change the handshake. */
  lemma TrailingDataIgnored(sha1: string -> Digest, head: string, in1: Inbound, in2: Inbound, writeOk: bool)
    requires head == [] || EndsIn(head, '\n')
    requires BlankLine !in Chunks(head)
    requires head + BlankLine <= in1.data && head + BlankLine <= in2.data
    ensures WebsocketHandshake(sha1, in1, writeOk) == WebsocketHandshake(sha1, in2, writeOk)
  {
    BlankLineEndsRequest(in1.data, head);
    BlankLineEndsRequest(in2.data, head);
  }

  /** A request whose header block holds a key answers with the accept
      token of the first key: when the write succeeds, the handshake's
      result is the reply for that token. */
  lemma KeyedRequestAnswered(sha1: string -> Digest, head: string, inbound: Inbound, key: string)
    requires head == [] || EndsIn(head, '\n')
    requires BlankLine !in Chunks(head)
    requires head + BlankLine <= inbound.data
    requires ExtractKey(head) == Some(key)
    ensures WebsocketHandshake(sha1, inbound, true) == Success(Reply(AcceptToken(sha1, key)))
  {
    BlankLineEndsRequest(inbound.data, head);
  }

  /** A request whose header block holds no key line fails with
      `MissingKey`, whether or not the write would succeed, once the header
      loop has ended without a read error: at end of stream, or on a blank
      line, after which a read error is never seen. */
  lemma KeylessRequestRejected(sha1: string -> Digest, inbound: Inbound, writeOk: bool)
    requires ReadRequest(inbound).Success?
    requires forall i :: 0 <= i < |Lines(ReadRequest(inbound).value)| ==> !IsKeyLine(Lines(ReadRequest(inbound).value)[i])
    ensures WebsocketHandshake(sha1, inbound, writeOk) == Failure(MissingKey)
  {
    ExtractKeyIsFirstMatch(ReadRequest(inbound).value);
  }
}

=== FILE: headers.dfy ===
/** The header-reading loop of `websocket_handshake`: `read_line` chunks are
    accumulated until a chunk is exactly "\r\n" or the input runs out. */
module Headers {
  import opened Text

  /** The terminator chunk that ends the header block. */
  const BlankLine: string := CRLF

  /** What the loop leaves behind: the accumulated request text, and whether
      it stopped on a blank line (rather than at end of input). */
  datatype HeaderBlock = HeaderBlock(request: string, terminated: bool)

  /** `k` is where the loop stops over chunks `cs`: the first blank chunk,
      or the end when there is none. */
  predicate StopsAt(cs: seq<string>, k: int) {
    && 0 <= k <= |cs|
    && (forall j :: 0 <= j < k ==> cs[j] != BlankLine)
    && (k == |cs| || cs[k] == BlankLine)
  }

  /** The loop over the successive `read_line` results: stop on a blank
      chunk or when no chunk is left, otherwise append the chunk and go on. */
  function ReadChunks(cs: seq<string>): (h: HeaderBlock)
    decreases |cs|
  {
    if |cs| == 0 then HeaderBlock([], false)
    else if cs[0] == BlankLine then HeaderBlock([], true)
    else
      var rest := ReadChunks(cs[1..]);
      HeaderBlock(cs[0] + rest.request, rest.terminated)
  }

  /** The loop stops at the first blank chunk: the request is the
      concatenation of the chunks before it, and the loop reports termination
      exactly when a blank chunk exists. */
  lemma {:induction false} ReadChunksStopsAt(cs: seq<string>, k: int)
    requires StopsAt(cs, k)
    ensures ReadChunks(cs) == HeaderBlock(Concat(cs[..k]), k < |cs|)
    decreases |cs|
  {
    if k > 0 {
      assert StopsAt(cs[1..], k - 1) by {
        forall j | 0 <= j < k - 1 ensures cs[1..][j] != BlankLine {
          assert cs[1..][j] == cs[j + 1];
        }
      }
      ReadChunksStopsAt(cs[1..], k - 1);
      assert cs[..k] == [cs[0]] + cs[1..][..k - 1];
    }
  }

  /** The index of the first blank chunk, or the number of chunks. */
  function FirstBlank(cs: seq<string>): (k: nat)
    ensures StopsAt(cs, k)
    decreases |cs|
  {
    if |cs| == 0 || cs[0] == BlankLine then 0
    else
      var k := FirstBlank(cs[1..]);
      assert forall j :: 1 <= j < k + 1 ==> cs[j] == cs[1..][j - 1];
      k + 1
  }

  /** The header-reading loop over the text the client sends. The request
      is a prefix of the input; when the loop stopped on a blank line, that
      line follows the request; otherwise the request is the whole input,
      as end of input is not an error. */
  function ReadHeaders(input: string): (h: HeaderBlock)
    ensures h.request <= input
    ensures h.terminated ==> BlankLine <= input[|h.request|..]
    ensures !h.terminated ==> h.request == input
  {
    var cs := Chunks(input);
    var k := FirstBlank(cs);
    ReadChunksStopsAt(cs, k);
    ConcatAppend(cs[..k], cs[k..]);
    assert cs[..k] + cs[k..] == cs;
    if k < |cs| then
      assert cs[k..] == [BlankLine] + cs[k + 1..];
      assert Concat(cs[k..]) == BlankLine + Concat(cs[k + 1..]);
      ReadChunks(cs)
    else
      assert cs[..k] == cs;
      ReadChunks(cs)
  }

  /** A blank line is a chunk of its own. */
  lemma ChunksOfBlankLine(tail: string)
    ensures Chunks(BlankLine + tail) == [BlankLine] + Chunks(tail)
  {
    ChunksAppend(BlankLine, tail);
    assert LineEnd(BlankLine[1..]) == 1;
    assert LineEnd(BlankLine) == 2;
    assert BlankLine[..2] == BlankLine;
    assert BlankLine[2..] == [];
  }

  /** A blank line after a line boundary is a chunk of its own. */
  lemma ChunksAroundBlankLine(head: string, tail: string)
    requires head == [] || EndsIn(head, '\n')
    ensures Chunks(head + (BlankLine + tail)) == Chunks(head) + [BlankLine] + Chunks(tail)
  {
    ChunksAppend(head, BlankLine + tail);
    ChunksOfBlankLine(tail);
  }

  /** Over chunks that hold a blank chunk right after `ch`, and none in
      `ch`, the loop stops right after `ch`. */
  lemma StopsAfter(ch: seq<string>, rest: seq<string>)
    requires BlankLine !in ch
    ensures StopsAt(ch + [BlankLine] + rest, |ch|)
    ensures (ch + [BlankLine] + rest)[..|ch|] == ch
  {
    var cs := ch + [BlankLine] + rest;
    assert forall j :: 0 <= j < |ch| ==> cs[j] == ch[j];
  }

  /** The header loop over the input is the loop over its chunks. */
  lemma ReadHeadersIsReadChunks(input: string)
    ensures ReadHeaders(input) == ReadChunks(Chunks(input))
  {
  }

  /** The loop stops at the first blank chunk: whatever follows it is never
      part of the request. */
  lemma BlankLineEndsRequest(input: string, head: string)
    requires head == [] || EndsIn(head, '\n')
    requires BlankLine !in Chunks(head)
    requires head + BlankLine <= input
    ensures ReadHeaders(input) == HeaderBlock(head, true)
  {
    var tail := input[|head| + |BlankLine|..];
    SplitAfterPrefix(input, head, BlankLine);
    ChunksAroundBlankLine(head, tail);
    var ch := Chunks(head);
    StopsAfter(ch, Chunks(tail));
    ReadChunksStopsAt(Chunks(input), |ch|);
    ReadHeadersIsReadChunks(input);
  }

  /** Without a blank chunk the whole input is the request, and the loop
      reports it as unterminated: reaching end of input is not an error. */
  lemma UnterminatedTakesWholeInput(input: string)
    requires BlankLine !in Chunks(input)
    ensures ReadHeaders(input) == HeaderBlock(input, false)
  {
    var cs := Chunks(input);
    assert cs[..|cs|] == cs;
    ReadChunksStopsAt(cs, |cs|);
  }

  /** A bare "\n" chunk is an ordinary header line, not a terminator. */
  lemma BareNewlineDoesNotTerminate(rest: string)
    ensures ReadHeaders("\n" + rest).request == "\n" + ReadHeaders(rest).request
    ensures ReadHeaders("\n" + rest).terminated == ReadHeaders(rest).terminated
  {
    var input := "\n" + rest;
    assert LineEnd(input) == 1;
    assert input[..1] == "\n";
    assert input[1..] == rest;
    assert Chunks(input) == ["\n"] + Chunks(rest);
  }

  /** The loop reports a terminated header block exactly when some
      `read_line` chunk of the input is a blank line. */
  lemma TerminatedIffBlankChunk(input: string)
    ensures ReadHeaders(input).terminated <==> BlankLine in Chunks(input)
  {
    var cs := Chunks(input);
    var k := FirstBlank(cs);
    ReadChunksStopsAt(cs, k);
    if BlankLine in cs {
      var j :| 0 <= j < |cs| && cs[j] == BlankLine;
      assert k <= j;
    }
  }

  /** A non-empty CRLF-terminated line adds no blank chunk. */
  lemma NoBlankCons(line: string, rest: string)
    requires '\n' !in line && line != []
    requires BlankLine !in Chunks(rest)
    ensures BlankLine !in Chunks((line + CRLF) + rest)
  {
    ChunksCons(line, rest);
    assert |line + CRLF| > 2;
  }

  /** Four non-empty CRLF-terminated lines hold no blank chunk. */
  lemma NoBlankChunk(l1: string, l2: string, l3: string, l4: string)
    requires '\n' !in l1 && '\n' !in l2 && '\n' !in l3 && '\n' !in l4
    requires l1 != [] && l2 != [] && l3 != [] && l4 != []
    ensures BlankLine !in Chunks((l1 + CRLF) + ((l2 + CRLF) + ((l3 + CRLF) + (l4 + CRLF))))
  {
    var c2, c3, c4 := l2 + CRLF, l3 + CRLF, l4 + CRLF;
    assert Chunks([]) == [];
    assert c4 + [] == c4;
    NoBlankCons(l4, []);
    NoBlankCons(l3, c4);
    NoBlankCons(l2, c3 + c4);
    NoBlankCons(l1, c2 + (c3 + c4));
  }
}

=== FILE: keyheader.dfy ===
/** Extraction of the `Sec-WebSocket-Key` value from the accumulated request
    text: the first line whose lowercase form starts with the key prefix wins,
    and its remainder after the prefix, trimmed, is the key. */
module KeyHeader {
  import opened Wrappers
  import opened Text

  /** The header name, in the lowercase form the request lines are matched in. */
  const KeyName: string := "sec-websocket-key"

  /** The lowercase header prefix the request lines are matched against. */
  const KeyPrefix: string := KeyName + ":"

  /** True iff the line, lowercased, starts with the key prefix. */
  predicate IsKeyLine(line: string) {
    StartsWith(ToLower(line), KeyPrefix)
  }

  /** The key carried by a key line: the line with its first 18 characters
      removed and surrounding whitespace trimmed. */
  function KeyValue(line: string): string
    requires |line| >= |KeyPrefix|
  {
    Trim(line[|KeyPrefix|..])
  }

  /** `i` is the position of the first key line among `lines`. */
  predicate FirstKeyLine(lines: seq<string>, i: int) {
    && 0 <= i < |lines|
    && IsKeyLine(lines[i])
    && (forall j :: 0 <= j < i ==> !IsKeyLine(lines[j]))
  }

  /** The `find_map` over the request lines: the key of the first key line. */
  function FindKey(lines: seq<string>): Option<string>
    decreases |lines|
  {
    if |lines| == 0 then None
    else if IsKeyLine(lines[0]) then Some(KeyValue(lines[0]))
    else FindKey(lines[1..])
  }

  /** The first key line of the lines after a non-key first line. */
  lemma FirstKeyLineTail(lines: seq<string>, i: int)
    requires FirstKeyLine(lines, i) && i > 0
    ensures FirstKeyLine(lines[1..], i - 1) && lines[1..][i - 1] == lines[i]
  {
    assert forall j :: 0 <= j < i - 1 ==> lines[1..][j] == lines[j + 1];
  }

  /** The lookup returns the key of the first key line. */
  lemma {:induction false} FindKeyFindsFirst(lines: seq<string>, i: int)
    requires FirstKeyLine(lines, i)
    ensures FindKey(lines) == Some(KeyValue(lines[i]))
    decreases i
  {
    if i > 0 {
      assert !IsKeyLine(lines[0]);
      FirstKeyLineTail(lines, i);
      FindKeyFindsFirst(lines[1..], i - 1);
    }
  }

  /** The lookup fails exactly when no line is a key line. */
  lemma {:induction false} FindKeyFails(lines: seq<string>)
    ensures FindKey(lines).None? <==> forall i :: 0 <= i < |lines| ==> !IsKeyLine(lines[i])
    decreases |lines|
  {
    if |lines| > 0 {
      FindKeyFails(lines[1..]);
      assert forall i :: 1 <= i < |lines| ==> lines[i] == lines[1..][i - 1];
    }
  }

  /** There is a first key line whenever there is any key line. */
  lemma {:induction false} FirstKeyLineExists(lines: seq<string>, i: int)
    requires 0 <= i < |lines| && IsKeyLine(lines[i])
    ensures exists f :: FirstKeyLine(lines, f)
    decreases i
  {
    if !FirstKeyLine(lines, i) {
      var j :| 0 <= j < i && IsKeyLine(lines[j]);
      FirstKeyLineExists(lines, j);
    }
  }

  /** The key lookup over the request text, split as Rust's `str::lines`
      splits it. */
  function ExtractKey(request: string): Option<string> {
    FindKey(Lines(request))
  }

  /** A request yields a key exactly when one of its lines is a key line,
      and then the key is that of the first key line. */
  lemma ExtractKeyIsFirstMatch(request: string)
    ensures ExtractKey(request).None? <==> forall i :: 0 <= i < |Lines(request)| ==> !IsKeyLine(Lines(request)[i])
    ensures forall i :: FirstKeyLine(Lines(request), i) ==> ExtractKey(request) == Some(KeyValue(Lines(request)[i]))
  {
    FindKeyFails(Lines(request));
    forall i | FirstKeyLine(Lines(request), i)
      ensures ExtractKey(request) == Some(KeyValue(Lines(request)[i]))
    {
      FindKeyFindsFirst(Lines(request), i);
    }
  }

  /** The key of a line without line breaks holds no line break and does
      not end in whitespace. */
  lemma KeyValueShape(line: string)
    requires |line| >= |KeyPrefix| && '\n' !in line
    ensures '\n' !in KeyValue(line)
    ensures !EndsIn(KeyValue(line), '\r')
  {
    var rest := line[|KeyPrefix|..];
    assert forall c :: c in rest ==> c in line;
    TrimKeepsCharacters(rest);
  }

  /** A found key never contains a line break and never ends in whitespace,
      so a trailing '\r' is never part of it. */
  lemma ExtractedKeyShape(request: string)
    ensures ExtractKey(request).Some? ==> '\n' !in ExtractKey(request).value
    ensures ExtractKey(request).Some? ==> !EndsIn(ExtractKey(request).value, '\r')
  {
    var ls := Lines(request);
    FindKeyFails(ls);
    if ExtractKey(request).Some? {
      var i0 :| 0 <= i0 < |ls| && IsKeyLine(ls[i0]);
      FirstKeyLineExists(ls, i0);
      var i :| FirstKeyLine(ls, i);
      FindKeyFindsFirst(ls, i);
      KeyValueShape(ls[i]);
    }
  }

  /** Skipping lines that are not key lines does not change the lookup. */
  lemma {:induction false} FindKeySkips(before: seq<string>, after: seq<string>)
    requires forall i :: 0 <= i < |before| ==> !IsKeyLine(before[i])
    ensures FindKey(before + after) == FindKey(after)
    decreases |before|
  {
    if |before| > 0 {
      var l := before + after;
      assert l[0] == before[0];
      assert !IsKeyLine(l[0]);
      assert l[1..] == before[1..] + after;
      FindKeySkips(before[1..], after);
    } else {
      assert before + after == after;
    }
  }

  /** A header line `name:value` whose name is "Sec-WebSocket-Key" in any
      letter case is a key line carrying the trimmed value. */
  lemma KeyLineAnyCase(name: string, value: string)
    requires ToLower(name) == KeyName
    ensures IsKeyLine(name + (":" + value))
    ensures KeyValue(name + (":" + value)) == Trim(value)
  {
    var line := name + (":" + value);
    var tail := ToLower(":" + value);
    ToLowerAppend(name, ":" + value);
    assert tail[0] == ':';
    PrefixThenChar(KeyName, ':', tail);
    assert |name| == |KeyName|;
    RestAfterChar(name, ':', value);
  }

  /** `a` followed by a text starting with `c` starts with `a + [c]`. */
  lemma PrefixThenChar(a: string, c: char, x: string)
    requires |x| > 0 && x[0] == c
    ensures a + [c] <= a + x
  {
    assert (a + x)[..|a| + 1] == a + [c];
  }

  /** What follows `a` and one character is the rest. */
  lemma RestAfterChar(a: string, c: char, v: string)
    ensures (a + ([c] + v))[|a| + 1..] == v
  {
  }

  /** The lines of text made of `before`, a line and its CRLF, and `after`. */
  lemma LinesAroundLine(before: string, line: string, after: string)
    requires before == [] || EndsIn(before, '\n')
    requires '\n' !in line
    ensures Lines(before + ((line + CRLF) + after)) == Lines(before) + ([line] + Lines(after))
  {
    LinesAppend(before, (line + CRLF) + after);
    LinesCons(line, after);
  }

  /** The first key line decides, whatever follows it, including later key
      lines. */
  lemma FirstKeyLineWins(request: string, before: string, line: string)
    requires before == [] || EndsIn(before, '\n')
    requires forall i :: 0 <= i < |Lines(before)| ==> !IsKeyLine(Lines(before)[i])
    requires IsKeyLine(line) && '\n' !in line
    requires before + (line + CRLF) <= request
    ensures ExtractKey(request) == Some(KeyValue(line))
  {
    var t := line + CRLF;
    var after := request[|before| + |t|..];
    SplitAfterPrefix(request, before, t);
    LinesAroundLine(before, line, after);
    FindKeySkips(Lines(before), [line] + Lines(after));
    assert ([line] + Lines(after))[0] == line;
  }
}

=== FILE: port.dfy ===
/** The listening port: `get_port` scans the command-line arguments for
    `--port <value>` and parses the value as an unsigned 16-bit integer the
    way Rust's `str::parse::<u16>` does, falling back to port 80. */
module Port {
  import opened Wrappers

  /** The largest `u16`. */
  const MaxU16: nat := 65535

  /** The port used when no usable `--port` argument is given. */
  const DefaultPort: nat := 80

  /** The flag that introduces a port value. */
  const PortFlag: string := "--port"

  /** An ASCII decimal digit. */
  predicate IsDigit(c: char) {
    '0' <= c <= '9'
  }

  /** The value of a decimal digit. */
  function DigitValue(c: char): (d: nat)
    requires IsDigit(c)
    ensures d < 10
  {
    c as int - '0' as int
  }

  /** Every character is a decimal digit. */
  predicate AllDigits(ds: string) {
    forall i :: 0 <= i < |ds| ==> IsDigit(ds[i])
  }

  /** Ten to the power `n`. */
  function Pow10(n: nat): (p: nat)
    ensures p >= 1
  {
    if n == 0 then 1 else 10 * Pow10(n - 1)
  }

  /** The number a digit string denotes, read positionally: all digits but
      the last, times ten, plus the last. */
  function DigitsValue(ds: string): nat
    requires AllDigits(ds)
    decreases |ds|
  {
    if |ds| == 0 then 0 else DigitsValue(ds[..|ds| - 1]) * 10 + DigitValue(ds[|ds| - 1])
  }

  /** The digits after an optional leading '+'. */
  function Unsigned(s: string): (ds: string)
    ensures ds == s || (s != [] && s[0] == '+' && ds == s[1..])
  {
    if |s| > 0 && s[0] == '+' then s[1..] else s
  }

  /** The digit loop of `u16::from_str`: left to right, multiplying the
      result by ten and adding each digit, failing on a non-digit or as soon
      as the result leaves the `u16` range. */
  function Accumulate(ds: string, acc: nat): Option<nat>
    decreases |ds|
  {
    if |ds| == 0 then Some(acc)
    else if !IsDigit(ds[0]) then None
    else
      var next := acc * 10 + DigitValue(ds[0]);
      if next > MaxU16 then None else Accumulate(ds[1..], next)
  }

  /** `str::parse::<u16>`: empty text, a lone sign, any non-digit (a '-'
      included) and values above 65535 fail; one leading '+' is allowed. */
  function ParseU16(s: string): Option<nat> {
    if |s| == 0 then None
    else if |Unsigned(s)| == 0 then None
    else Accumulate(Unsigned(s), 0)
  }

  /** Shifting a number split at its first digit one place left. */
  lemma ShiftArithmetic(d0: nat, p: nat, m: nat, dl: nat)
    ensures (d0 * p + m) * 10 + dl == d0 * (10 * p) + (m * 10 + dl)
  {
  }

  /** Splitting off the first digit of a positional number. */
  lemma {:induction false} DigitsValueHead(ds: string)
    requires |ds| > 0 && AllDigits(ds)
    ensures AllDigits(ds[1..])
    ensures DigitsValue(ds) == DigitValue(ds[0]) * Pow10(|ds| - 1) + DigitsValue(ds[1..])
    decreases |ds|
  {
    assert forall i :: 0 <= i < |ds| - 1 ==> ds[1..][i] == ds[i + 1];
    if |ds| > 1 {
      var init, rest := ds[..|ds| - 1], ds[1..];
      assert forall i :: 0 <= i < |init| ==> init[i] == ds[i];
      DigitsValueHead(init);
      assert init[1..] == rest[..|rest| - 1];
      ShiftArithmetic(DigitValue(ds[0]), Pow10(|ds| - 2), DigitsValue(init[1..]), DigitValue(ds[|ds| - 1]));
    }
  }

  /** The loop's result from `acc` over `ds`, when no step overflows. */
  function Folded(acc: nat, ds: string): nat
    requires AllDigits(ds)
  {
    acc * Pow10(|ds|) + DigitsValue(ds)
  }

  /** Distributing the place value of the rest over the new accumulator. */
  lemma StepArithmetic(acc: nat, d: nat, p: nat)
    requires p >= 1
    ensures (acc * 10 + d) * p == acc * (10 * p) + d * p
    ensures acc * 10 + d <= (acc * 10 + d) * p
  {
    var x := acc * 10 + d;
    assert x * p == x * (p - 1) + x;
  }

  /** One step of the loop: taking the first digit into the accumulator
      leaves the final result unchanged, and the new accumulator does not
      exceed it. */
  lemma FoldedStep(acc: nat, ds: string)
    requires |ds| > 0 && AllDigits(ds)
    ensures AllDigits(ds[1..])
    ensures Folded(acc * 10 + DigitValue(ds[0]), ds[1..]) == Folded(acc, ds)
    ensures acc * 10 + DigitValue(ds[0]) <= Folded(acc, ds)
  {
    var d, rest := DigitValue(ds[0]), ds[1..];
    DigitsValueHead(ds);
    var p := Pow10(|rest|);
    assert Pow10(|ds|) == 10 * p;
    StepArithmetic(acc, d, p);
  }

  /** The digit loop computes the positional value, and fails exactly when
      some character is not a digit or the value exceeds 65535: the
      intermediate results never exceed the final one, so an overflow check
      at every step is an overflow check of the result. */
  lemma {:induction false} AccumulateValue(ds: string, acc: nat)
    requires acc <= MaxU16
    ensures Accumulate(ds, acc) == if AllDigits(ds) && Folded(acc, ds) <= MaxU16 then Some(Folded(acc, ds)) else None
    decreases |ds|
  {
    if |ds| > 0 && IsDigit(ds[0]) {
      var next := acc * 10 + DigitValue(ds[0]);
      var rest := ds[1..];
      assert AllDigits(ds) <==> AllDigits(rest) by {
        assert forall i :: 1 <= i < |ds| ==> ds[i] == rest[i - 1];
      }
      if AllDigits(ds) {
        FoldedStep(acc, ds);
      }
      if next <= MaxU16 {
        AccumulateValue(rest, next);
      }
    }
  }

  /** `parse::<u16>` succeeds exactly on an optional '+' followed by at
      least one digit, all digits, with a value of at most 65535, and then
      yields that value. */
  lemma ParseU16Value(s: string)
    ensures ParseU16(s) == if |Unsigned(s)| > 0 && AllDigits(Unsigned(s)) && DigitsValue(Unsigned(s)) <= MaxU16
                           then Some(DigitsValue(Unsigned(s))) else None
  {
    if |s| > 0 && |Unsigned(s)| > 0 {
      AccumulateValue(Unsigned(s), 0);
    }
  }

  /** A parsed port is always in the `u16` range. */
  lemma ParseU16InRange(s: string)
    ensures ParseU16(s).Some? ==> ParseU16(s).value <= MaxU16
  {
    ParseU16Value(s);
  }

  /** The character of a decimal digit. */
  function DigitChar(d: nat): (c: char)
    requires d < 10
    ensures IsDigit(c) && DigitValue(c) == d
  {
    ('0' as int + d) as char
  }

  /** The shortest decimal text of `n`, as `format!("{}", n)` writes it. */
  function DecimalString(n: nat): (s: string)
    ensures |s| > 0 && AllDigits(s)
    ensures s[0] == '0' ==> s == "0"
    decreases n
  {
    if n < 10 then [DigitChar(n)] else DecimalString(n / 10) + [DigitChar(n % 10)]
  }

  /** The decimal text of `n` denotes `n`. */
  lemma {:induction false} DecimalStringValue(n: nat)
    ensures DigitsValue(DecimalString(n)) == n
    decreases n
  {
    var s := DecimalString(n);
    if n >= 10 {
      DecimalStringValue(n / 10);
      assert s[..|s| - 1] == DecimalString(n / 10);
    }
  }

  /** Parsing the decimal text of a port gives the port back. */
  lemma ParseDecimalString(n: nat)
    requires n <= MaxU16
    ensures ParseU16(DecimalString(n)) == Some(n)
  {
    DecimalStringValue(n);
    ParseU16Value(DecimalString(n));
  }

  /** The address `main` binds to: every interface, on the given port. */
  function ListenAddress(port: nat): (a: string)
    ensures "[::]:" <= a
  {
    "[::]:" + DecimalString(port)
  }

  /** The port can be read back from the listen address. */
  lemma ListenAddressPort(port: nat)
    requires port <= MaxU16
    ensures ParseU16(ListenAddress(port)[5..]) == Some(port)
  {
    assert ListenAddress(port)[5..] == DecimalString(port);
    ParseDecimalString(port);
  }

  /** Position `i` holds a `--port` flag that the loop acts on: it is not the
      program name and a value follows it. */
  predicate FlagAt(args: seq<string>, i: int) {
    1 <= i && i + 1 < |args| && args[i] == PortFlag
  }

  /** The port a flag at `i` sets: its value parsed, or 80 when it does not
      parse. */
  function PortAt(args: seq<string>, i: int): nat
    requires FlagAt(args, i)
  {
    ParseU16(args[i + 1]).GetOr(DefaultPort)
  }

  /** The last flag position below `n`, if any. */
  function LastFlagBelow(args: seq<string>, n: nat): (r: Option<nat>)
    ensures r.Some? ==> r.value < n && FlagAt(args, r.value)
    ensures r.Some? ==> forall j :: r.value < j < n ==> !FlagAt(args, j)
    ensures r.None? ==> forall j :: 0 <= j < n ==> !FlagAt(args, j)
  {
    if n == 0 then None
    else if FlagAt(args, n - 1) then Some(n - 1)
    else LastFlagBelow(args, n - 1)
  }

  /** The port the arguments select: that of the last flag, or 80. */
  function PortSetting(args: seq<string>): nat {
    match LastFlagBelow(args, |args|)
    case None => DefaultPort
    case Some(i) => PortAt(args, i)
  }

  /** The loop of `get_port`: every `--port` followed by a value overrides
      the port chosen so far. */
  method GetPort(args: seq<string>) returns (port: nat)
    ensures port == PortSetting(args)
    ensures port <= MaxU16
  {
    port := DefaultPort;
    var i := 1;
    while i < |args|
      invariant 1 <= i
      invariant port == match LastFlagBelow(args, i) case None => DefaultPort case Some(j) => PortAt(args, j)
      invariant port <= MaxU16
    {
      if args[i] == PortFlag && i + 1 < |args| {
        port := ParseU16(args[i + 1]).GetOr(DefaultPort);
        ParseU16InRange(args[i + 1]);
      }
      i := i + 1;
    }
    if |args| == 0 {
      assert LastFlagBelow(args, 0).None?;
    }
  }

  /** The last flag decides: the port is that of the last `--port` that has
      a value after it, and 80 when there is no such flag. */
  lemma LastFlagDecides(args: seq<string>, i: int)
    requires FlagAt(args, i)
    requires forall j :: i < j < |args| ==> !FlagAt(args, j)
    ensures PortSetting(args) == PortAt(args, i)
  {
  }

  /** Without a usable flag the port is 80. */
  lemma NoFlagDefault(args: seq<string>)
    requires forall j :: 0 <= j < |args| ==> !FlagAt(args, j)
    ensures PortSetting(args) == DefaultPort
  {
  }

  /** A value that does not parse resets the port to 80, even after an
      earlier valid flag. */
  lemma UnparsableLastValue(before: seq<string>, value: string)
    requires |before| >= 1
    requires ParseU16(value).None?
    ensures PortSetting(before + [PortFlag, value]) == DefaultPort
  {
    var args := before + [PortFlag, value];
    assert args[|before|] == PortFlag && args[|before| + 1] == value;
    LastFlagDecides(args, |before|);
  }

  /** The program name is never read as a flag. */
  lemma ProgramNameIgnored(args: seq<string>, name: string)
    requires |args| >= 1
    ensures PortSetting(args[0 := name]) == PortSetting(args)
  {
    var other := args[0 := name];
    assert forall j :: 0 <= j < |args| ==> (FlagAt(other, j) <==> FlagAt(args, j));
  }

  /** Boundary cases of `parse::<u16>`: a leading '+' is accepted, a sign
      alone, a '-' and 65536 are not. */
  lemma ParseU16Boundaries()
    ensures ParseU16("+8080") == Some(8080)
    ensures ParseU16("65535") == Some(65535) && ParseU16("65536").None?
    ensures ParseU16("").None? && ParseU16("+").None? && ParseU16("-1").None?
  {
  }

  /** `proxy --port 8080` listens on 8080; a trailing `--port` with no value
      is ignored; `--port` given as the program name is ignored. */
  lemma GetPortExamples()
    ensures PortSetting(["proxy", "--port", "8080"]) == 8080
    ensures PortSetting(["proxy", "--port", "8080", "--port"]) == 8080
    ensures PortSetting(["--port", "8080"]) == DefaultPort
  {
    var a: seq<string>, b: seq<string> := ["proxy", "--port", "8080"], ["proxy", "--port", "8080", "--port"];
    assert ParseU16("8080") == Some(8080);
    assert FlagAt(a, 1) && FlagAt(b, 1) && !FlagAt(b, 2) && !FlagAt(b, 3);
    LastFlagDecides(a, 1);
    LastFlagDecides(b, 1);
  }
}

=== FILE: response.dfy ===
/** The `101 Switching Protocols` reply `websocket_handshake` writes back:
    a fixed status line and two fixed headers, the accept header carrying the
    token, and the blank line that ends the header block. */
module Response {
  import opened Wrappers
  import opened Text
  import Headers

  /** The status line. */
  const StatusLine: string := "HTTP/1.1 101 Switching Protocols"

  /** The `Upgrade` header line. */
  const UpgradeLine: string := "Upgrade: websocket"

  /** The `Connection` header line. */
  const ConnectionLine: string := "Connection: Upgrade"

  /** The name part of the accept header line, up to the token. */
  const AcceptName: string := "Sec-WebSocket-Accept: "

  /** Everything before the token. */
  const Head: string := (StatusLine + CRLF) + ((UpgradeLine + CRLF) + ((ConnectionLine + CRLF) + AcceptName))

  /** Everything after the token: the end of the accept header line and the
      blank line. */
  const Tail: string := CRLF + CRLF

  /** The reply for an accept token. It starts with the status line and ends
      with an empty line. */
  function Reply(token: string): (r: string)
    ensures StartsWith(r, StatusLine + CRLF)
    ensures |r| >= 4 && r[|r| - 4..] == CRLF + CRLF
  {
    var r := Head + (token + Tail);
    assert r[..|StatusLine + CRLF|] == Head[..|StatusLine + CRLF|];
    assert r[|r| - 4..] == Tail;
    r
  }

  /** What a client reads back from a reply: the text between the accept
      header's name and the closing CRLF pair, when the reply has the fixed
      shape. */
  function AcceptOf(r: string): (token: Option<string>)
  {
    if |r| >= |Head| + |Tail| && Head <= r && r[|r| - |Tail|..] == Tail
    then Some(r[|Head|..|r| - |Tail|])
    else None
  }

  /** The token can be read back from the reply. */
  lemma AcceptOfReply(token: string)
    ensures AcceptOf(Reply(token)) == Some(token)
  {
    var r := Reply(token);
    assert r == Head + (token + Tail);
    assert r[..|Head|] == Head;
    assert r[|r| - |Tail|..] == Tail;
    assert r[|Head|..|r| - |Tail|] == token;
  }

  /** Every text a token can be read from is the reply for that token. */
  lemma ReplyOfAccept(r: string)
    requires AcceptOf(r).Some?
    ensures Reply(AcceptOf(r).value) == r
  {
    var token := AcceptOf(r).value;
    assert r == r[..|Head|] + token + r[|r| - |Tail|..];
  }

  /** Different tokens give different replies. */
  lemma ReplyInjective(t1: string, t2: string)
    ensures Reply(t1) == Reply(t2) <==> t1 == t2
  {
    AcceptOfReply(t1);
    AcceptOfReply(t2);
  }

  /** The reply as four header lines, each ended by CRLF, and the blank line. */
  lemma ReplyAsLines(token: string)
    ensures Reply(token) == (StatusLine + CRLF) + ((UpgradeLine + CRLF) + ((ConnectionLine + CRLF)
                          + ((AcceptName + token + CRLF) + CRLF)))
  {
    var c := (ConnectionLine + CRLF);
    assert c + AcceptName + (token + Tail) == c + ((AcceptName + token + CRLF) + CRLF);
  }

  /** None of the fixed lines contains a line break. */
  lemma FixedLinesUnbroken()
    ensures '\n' !in StatusLine && '\n' !in UpgradeLine && '\n' !in ConnectionLine && '\n' !in AcceptName
  {
  }

  /** A CRLF-terminated line and a blank line, split as `str::lines` splits
      them. */
  lemma LinesOfLastLine(l: string)
    requires '\n' !in l
    ensures Lines((l + CRLF) + CRLF) == [l, ""]
  {
    LinesOfLine([]);
    assert [] + CRLF == CRLF;
    LinesCons(l, CRLF);
  }

  /** Two CRLF-terminated lines and a blank line, split as `str::lines`
      splits them. */
  lemma LinesOfPair(l3: string, l4: string)
    requires '\n' !in l3 && '\n' !in l4
    ensures Lines((l3 + CRLF) + ((l4 + CRLF) + CRLF)) == [l3, l4, ""]
  {
    LinesOfLastLine(l4);
    LinesCons(l3, (l4 + CRLF) + CRLF);
  }

  /** Four CRLF-terminated lines and a blank line, split as `str::lines`
      splits them. */
  lemma LinesOfBlock(l1: string, l2: string, l3: string, l4: string)
    requires '\n' !in l1 && '\n' !in l2 && '\n' !in l3 && '\n' !in l4
    ensures Lines((l1 + CRLF) + ((l2 + CRLF) + ((l3 + CRLF) + ((l4 + CRLF) + CRLF)))) == [l1, l2, l3, l4, ""]
  {
    var r3 := (l3 + CRLF) + ((l4 + CRLF) + CRLF);
    var r2 := (l2 + CRLF) + r3;
    LinesOfPair(l3, l4);
    LinesCons(l2, r3);
    assert Lines(r2) == [l2, l3, l4, ""];
    LinesCons(l1, r2);
  }

  /** Split as `str::lines` splits, a reply whose token holds no line break
      is the status line, the three header lines and an empty line. */
  lemma ReplyLines(token: string)
    requires '\n' !in token
    ensures Lines(Reply(token)) == [StatusLine, UpgradeLine, ConnectionLine, AcceptName + token, ""]
  {
    FixedLinesUnbroken();
    var accept := AcceptName + token;
    assert '\n' !in accept by {
      assert forall i :: 0 <= i < |accept| ==> accept[i] == if i < |AcceptName| then AcceptName[i] else token[i - |AcceptName|];
    }
    ReplyAsLines(token);
    LinesOfBlock(StatusLine, UpgradeLine, ConnectionLine, accept);
  }

  /** The number of times `c` occurs in `s`. */
  function Occurrences(s: string, c: char): nat
    decreases |s|
  {
    if |s| == 0 then 0 else (if s[0] == c then 1 else 0) + Occurrences(s[1..], c)
  }

  /** Occurrences add up over a concatenation. */
  lemma {:induction false} OccurrencesAppend(a: string, b: string, c: char)
    ensures Occurrences(a + b, c) == Occurrences(a, c) + Occurrences(b, c)
    decreases |a|
  {
    if |a| > 0 {
      assert (a + b)[1..] == a[1..] + b;
      OccurrencesAppend(a[1..], b, c);
    } else {
      assert a + b == b;
    }
  }

  /** A character that is not in `s` occurs in it zero times. */
  lemma {:induction false} NoOccurrences(s: string, c: char)
    requires c !in s
    ensures Occurrences(s, c) == 0
    decreases |s|
  {
    if |s| > 0 {
      assert forall x :: x in s[1..] ==> x in s;
      NoOccurrences(s[1..], c);
    }
  }

  /** Every '\n' in `s` comes right after a '\r': `s` has no bare line feed. */
  predicate BreaksAreCrlf(s: string) {
    forall i :: 0 <= i < |s| && s[i] == '\n' ==> 0 < i && s[i - 1] == '\r'
  }

  /** A line without line breaks, ended by CRLF, has one line feed, and it
      follows a carriage return. */
  lemma LineBreaksOfLine(l: string)
    requires '\n' !in l
    ensures Occurrences(l + CRLF, '\n') == 1
    ensures BreaksAreCrlf(l + CRLF)
  {
    OccurrencesAppend(l, CRLF, '\n');
    NoOccurrences(l, '\n');
    assert Occurrences(CRLF, '\n') == 1;
    var s := l + CRLF;
    assert forall i :: 0 <= i < |l| ==> s[i] == l[i];
  }

  /** Text without bare line feeds stays so when concatenated. */
  lemma BreaksAppend(a: string, b: string)
    requires BreaksAreCrlf(a) && BreaksAreCrlf(b)
    ensures BreaksAreCrlf(a + b)
  {
    var s := a + b;
    forall i | 0 <= i < |s| && s[i] == '\n'
      ensures 0 < i && s[i - 1] == '\r'
    {
      if i < |a| {
        assert s[i] == a[i] && (0 < i ==> s[i - 1] == a[i - 1]);
      } else {
        assert s[i] == b[i - |a|];
        assert s[i - 1] == b[i - |a| - 1];
      }
    }
  }

  /** A reply whose token holds no line break holds exactly five line feeds,
      each right after a carriage return: exactly five CRLFs and no bare
      '\n'. */
  lemma ReplyLineBreaks(token: string)
    requires '\n' !in token
    ensures Occurrences(Reply(token), '\n') == 5
    ensures BreaksAreCrlf(Reply(token))
  {
    FixedLinesUnbroken();
    var accept := AcceptName + token;
    assert '\n' !in accept by {
      assert forall i :: 0 <= i < |accept| ==> accept[i] == if i < |AcceptName| then AcceptName[i] else token[i - |AcceptName|];
    }
    ReplyAsLines(token);
    var p1, p2, p3, p4, p5 := StatusLine + CRLF, UpgradeLine + CRLF, ConnectionLine + CRLF, accept + CRLF, [] + CRLF;
    assert p5 == CRLF;
    LineBreaksOfLine(StatusLine);
    LineBreaksOfLine(UpgradeLine);
    LineBreaksOfLine(ConnectionLine);
    LineBreaksOfLine(accept);
    LineBreaksOfLine([]);
    OccurrencesAppend(p4, p5, '\n');
    BreaksAppend(p4, p5);
    OccurrencesAppend(p3, p4 + p5, '\n');
    BreaksAppend(p3, p4 + p5);
    OccurrencesAppend(p2, p3 + (p4 + p5), '\n');
    BreaksAppend(p2, p3 + (p4 + p5));
    OccurrencesAppend(p1, p2 + (p3 + (p4 + p5)), '\n');
    BreaksAppend(p1, p2 + (p3 + (p4 + p5)));
  }

  /** Read with the server's own header loop, a reply whose token holds no
      line break ends exactly at its blank line: everything before it is
      the header block and the loop reports it as terminated. */
  lemma ReplyIsHeaderBlock(token: string)
    requires '\n' !in token
    ensures Headers.ReadHeaders(Reply(token)) == Headers.HeaderBlock(Reply(token)[..|Reply(token)| - 2], true)
  {
    FixedLinesUnbroken();
    var accept := AcceptName + token;
    assert '\n' !in accept by {
      assert forall i :: 0 <= i < |accept| ==> accept[i] == if i < |AcceptName| then AcceptName[i] else token[i - |AcceptName|];
    }
    var head := (StatusLine + CRLF) + ((UpgradeLine + CRLF) + ((ConnectionLine + CRLF) + (accept + CRLF)));
    var r := Reply(token);
    ReplyAsLines(token);
    assert r == head + CRLF;
    assert r[..|r| - 2] == head;
    Headers.NoBlankChunk(StatusLine, UpgradeLine, ConnectionLine, accept);
    assert EndsIn(head, '\n');
    Headers.BlankLineEndsRequest(r, head);
  }
}

=== FILE: text.dfy ===
/** The pieces of Rust's string library that the handshake relies on, over ASCII:
    the chunks `BufRead::read_line` returns, `str::lines`, `str::trim` and
    `str::to_lowercase`. */
module Text {

  /** The line terminator of HTTP: carriage return, line feed. */
  const CRLF: string := "\r\n"

  /** True iff `s` is non-empty and ends in `c`. */
  predicate EndsIn(s: string, c: char) {
    |s| > 0 && s[|s| - 1] == c
  }

  /** True iff `p` is a prefix of `s` (Rust's `starts_with`). */
  predicate StartsWith(s: string, p: string) {
    p <= s
  }

  /** A string that starts with `a + b` is `a`, then `b`, then the rest. */
  lemma SplitAfterPrefix(s: string, a: string, b: string)
    requires a + b <= s
    ensures s == a + (b + s[|a| + |b|..])
  {
    var rest := s[|a| + |b|..];
    assert s == (a + b) + rest;
  }

  /** Length of the first `read_line` chunk of `s`: up to and including the
      first '\n', or all of `s` when it holds no '\n'. */
  function LineEnd(s: string): (n: nat)
    ensures n <= |s|
    ensures |s| > 0 ==> n > 0
    ensures forall i :: 0 <= i < n - 1 ==> s[i] != '\n'
    ensures 0 < n < |s| ==> s[n - 1] == '\n'
    ensures n == |s| && n > 0 && s[n - 1] != '\n' ==> '\n' !in s
    decreases |s|
  {
    if |s| == 0 then 0
    else if s[0] == '\n' then 1
    else 1 + LineEnd(s[1..])
  }

  /** A chunk `read_line` can return: non-empty, with '\n' at most at its end. */
  predicate IsChunk(c: string) {
    |c| > 0 && forall i :: 0 <= i < |c| - 1 ==> c[i] != '\n'
  }

  /** A sequence of chunks where every chunk but the last ends in '\n'. */
  predicate WellChunked(cs: seq<string>) {
    && (forall i :: 0 <= i < |cs| ==> IsChunk(cs[i]))
    && (forall i :: 0 <= i < |cs| - 1 ==> EndsIn(cs[i], '\n'))
  }

  /** Concatenation of a sequence of strings. */
  function Concat(cs: seq<string>): (s: string)
    decreases |cs|
  {
    if |cs| == 0 then [] else cs[0] + Concat(cs[1..])
  }

  lemma {:induction false} ConcatAppend(a: seq<string>, b: seq<string>)
    ensures Concat(a + b) == Concat(a) + Concat(b)
    decreases |a|
  {
    if |a| == 0 {
      assert a + b == b;
    } else {
      assert (a + b)[1..] == a[1..] + b;
      ConcatAppend(a[1..], b);
    }
  }

  /** The successive results of `read_line` on `s` until it reports end of
      input: every chunk ends in '\n' except possibly a final fragment. */
  function Chunks(s: string): (cs: seq<string>)
    ensures Concat(cs) == s
    decreases |s|
  {
    if |s| == 0 then []
    else
      var n := LineEnd(s);
      assert s == s[..n] + s[n..];
      [s[..n]] + Chunks(s[n..])
  }

  /** Every chunk is a line piece, and all but the last end in '\n'. */
  lemma {:induction false} ChunksWellChunked(s: string)
    ensures WellChunked(Chunks(s))
    decreases |s|
  {
    if |s| > 0 {
      var n := LineEnd(s);
      var cs := Chunks(s);
      var tail := Chunks(s[n..]);
      assert cs == [s[..n]] + tail;
      ChunksWellChunked(s[n..]);
      forall i | 0 <= i < |cs| ensures IsChunk(cs[i]) {
        if i > 0 { assert cs[i] == tail[i - 1]; }
      }
      forall i | 0 <= i < |cs| - 1 ensures EndsIn(cs[i], '\n') {
        if i > 0 { assert cs[i] == tail[i - 1]; }
      }
    }
  }

  /** The chunking of a string is unique: any well-chunked split of `s` is `Chunks(s)`. */
  lemma {:induction false} ChunkingIsUnique(s: string, cs: seq<string>)
    requires WellChunked(cs) && Concat(cs) == s
    ensures cs == Chunks(s)
    decreases |cs|
  {
    if |cs| == 0 {
    } else {
      var c := cs[0];
      var n := LineEnd(s);
      assert s == c + Concat(cs[1..]);
      assert s[..|c|] == c;
      if |cs| == 1 {
        assert Concat(cs[1..]) == [];
        assert s == c;
        LineEndOfChunk(c, []);
      } else {
        assert EndsIn(c, '\n');
        LineEndOfChunk(c, Concat(cs[1..]));
      }
      assert n == |c|;
      assert s[n..] == Concat(cs[1..]);
      ChunkingIsUnique(s[n..], cs[1..]);
    }
  }

  /** A chunk at the head of a string is exactly what `LineEnd` measures,
      provided the chunk ends in '\n' or is all there is. */
  lemma {:induction false} LineEndOfChunk(c: string, rest: string)
    requires IsChunk(c)
    requires EndsIn(c, '\n') || rest == []
    ensures LineEnd(c + rest) == |c|
    decreases |c|
  {
    var s := c + rest;
    if s[0] == '\n' {
      assert |c| == 1;
    } else if |c| == 1 {
      assert rest == [];
    } else {
      assert s[1..] == c[1..] + rest;
      LineEndOfChunk(c[1..], rest);
    }
  }

  /** A concatenation ends in the character its last, non-empty part ends in. */
  lemma {:induction false} ConcatEndsIn(cs: seq<string>, c: char)
    requires |cs| > 0 && |cs[|cs| - 1]| > 0
    ensures |Concat(cs)| >= |cs[|cs| - 1]|
    ensures EndsIn(Concat(cs), c) <==> EndsIn(cs[|cs| - 1], c)
    decreases |cs|
  {
    if |cs| == 1 {
      assert Concat(cs) == cs[0] + Concat([]);
    } else {
      assert cs[1..][|cs| - 2] == cs[|cs| - 1];
      ConcatEndsIn(cs[1..], c);
    }
  }

  /** Well-chunked sequences compose when the first ends at a line boundary. */
  lemma WellChunkedAppend(ca: seq<string>, cb: seq<string>)
    requires WellChunked(ca) && WellChunked(cb)
    requires |ca| > 0 ==> EndsIn(ca[|ca| - 1], '\n')
    ensures WellChunked(ca + cb)
  {
    var cs := ca + cb;
    forall i | 0 <= i < |cs| ensures IsChunk(cs[i]) {
      if i < |ca| { assert cs[i] == ca[i]; } else { assert cs[i] == cb[i - |ca|]; }
    }
    forall i | 0 <= i < |cs| - 1 ensures EndsIn(cs[i], '\n') {
      if i < |ca| { assert cs[i] == ca[i]; } else { assert cs[i] == cb[i - |ca|]; }
    }
  }

  /** Chunking distributes over a split at a line boundary. */
  lemma ChunksAppend(a: string, b: string)
    requires a == [] || EndsIn(a, '\n')
    ensures Chunks(a + b) == Chunks(a) + Chunks(b)
  {
    var ca, cb := Chunks(a), Chunks(b);
    ChunksWellChunked(a);
    ChunksWellChunked(b);
    ConcatAppend(ca, cb);
    if |ca| > 0 {
      ConcatEndsIn(ca, '\n');
    }
    WellChunkedAppend(ca, cb);
    ChunkingIsUnique(a + b, ca + cb);
  }

  /** A single line without '\n', plus its terminator, is one chunk. */
  lemma ChunksOfLine(line: string, term: string)
    requires '\n' !in line
    requires term == "\n" || term == CRLF
    ensures Chunks(line + term) == [line + term]
  {
    var c := line + term;
    assert IsChunk(c) by {
      forall i | 0 <= i < |c| - 1 ensures c[i] != '\n' {
        if i < |line| { assert c[i] == line[i]; }
      }
    }
    assert Concat([c]) == c + Concat([]);
    ChunkingIsUnique(c, [c]);
  }

  /** Rust's `str::lines` on one chunk: drop a final '\n' and then one '\r'
      before it. A final fragment without '\n' keeps a trailing '\r'. */
  function StripLineEnding(c: string): (l: string)
    ensures IsChunk(c) ==> '\n' !in l
    ensures |c| >= 2 && c[|c| - 2..] == CRLF ==> l + CRLF == c
    ensures EndsIn(c, '\n') && (|c| < 2 || c[|c| - 2] != '\r') ==> l + "\n" == c
    ensures !EndsIn(c, '\n') ==> l == c
  {
    if EndsIn(c, '\n') then
      var d := c[..|c| - 1];
      if EndsIn(d, '\r') then d[..|d| - 1] else d
    else c
  }

  /** Line endings removed from each chunk. */
  function StripAll(cs: seq<string>): (ls: seq<string>)
    ensures |ls| == |cs|
  {
    seq(|cs|, i requires 0 <= i < |cs| => StripLineEnding(cs[i]))
  }

  lemma StripAllAppend(a: seq<string>, b: seq<string>)
    ensures StripAll(a + b) == StripAll(a) + StripAll(b)
  {
    var l, la, lb := StripAll(a + b), StripAll(a), StripAll(b);
    forall i | 0 <= i < |l| ensures l[i] == (la + lb)[i] {
      if i < |a| {
        assert (a + b)[i] == a[i];
      } else {
        assert (a + b)[i] == b[i - |a|];
      }
    }
  }

  /** Rust's `str::lines`: the chunks of `s` with their line endings removed. */
  function Lines(s: string): (ls: seq<string>)
    ensures |ls| == |Chunks(s)|
    ensures forall i :: 0 <= i < |ls| ==> '\n' !in ls[i]
  {
    var cs := Chunks(s);
    ChunksWellChunked(s);
    StripAll(cs)
  }

  lemma LinesAppend(a: string, b: string)
    requires a == [] || EndsIn(a, '\n')
    ensures Lines(a + b) == Lines(a) + Lines(b)
  {
    ChunksAppend(a, b);
    StripAllAppend(Chunks(a), Chunks(b));
  }

  /** `Lines` of a single CRLF-terminated line is that line. */
  lemma LinesOfLine(line: string)
    requires '\n' !in line
    ensures Lines(line + CRLF) == [line]
  {
    var c := line + CRLF;
    ChunksOfLine(line, CRLF);
    assert c[..|c| - 1] == line + "\r";
    assert (line + "\r")[..|line|] == line;
  }

  /** A CRLF-terminated line in front of more text is a line of its own. */
  lemma LinesCons(line: string, rest: string)
    requires '\n' !in line
    ensures Lines((line + CRLF) + rest) == [line] + Lines(rest)
  {
    LinesAppend(line + CRLF, rest);
    LinesOfLine(line);
  }

  /** A CRLF-terminated line in front of more text is a chunk of its own. */
  lemma ChunksCons(line: string, rest: string)
    requires '\n' !in line
    ensures Chunks((line + CRLF) + rest) == [line + CRLF] + Chunks(rest)
  {
    ChunksAppend(line + CRLF, rest);
    ChunksOfLine(line, CRLF);
  }

  /** The characters Rust's `char::is_whitespace` accepts below 128:
      tab, line feed, vertical tab, form feed, carriage return and space. */
  predicate IsWhitespace(c: char) {
    c == ' ' || ('\t' <= c <= '\r')
  }

  /** The index of the first non-whitespace character at or after `i`, or
      the length when there is none: where `str::trim_start` cuts. */
  function FirstKept(s: string, i: nat): (n: nat)
    requires i <= |s|
    ensures i <= n <= |s|
    ensures forall k :: i <= k < n ==> IsWhitespace(s[k])
    ensures n < |s| ==> !IsWhitespace(s[n])
    decreases |s| - i
  {
    if i < |s| && IsWhitespace(s[i]) then FirstKept(s, i + 1) else i
  }

  /** The end of `s[lo..hi]` once its trailing whitespace is cut: where
      `str::trim_end` cuts. */
  function LastKept(s: string, lo: nat, hi: nat): (m: nat)
    requires lo <= hi <= |s|
    ensures lo <= m <= hi
    ensures forall k :: m <= k < hi ==> IsWhitespace(s[k])
    ensures lo < m ==> !IsWhitespace(s[m - 1])
    decreases hi
  {
    if lo < hi && IsWhitespace(s[hi - 1]) then LastKept(s, lo, hi - 1) else hi
  }

  /** `r` is the infix of `s` at offset `i`, with only whitespace around it. */
  predicate IsInfixAmidWhitespace(s: string, r: string, i: int) {
    && 0 <= i <= |s| - |r|
    && r == s[i..i + |r|]
    && (forall k :: 0 <= k < i ==> IsWhitespace(s[k]))
    && (forall k :: i + |r| <= k < |s| ==> IsWhitespace(s[k]))
  }

  /** Neither end of `r` is whitespace. */
  predicate IsTrimmed(r: string) {
    r == [] || (!IsWhitespace(r[0]) && !IsWhitespace(r[|r| - 1]))
  }

  /** Rust's `str::trim`: the infix of `s` that neither starts nor ends in
      whitespace, with only whitespace cut off on either side. */
  function Trim(s: string): (r: string)
    ensures IsTrimmed(r)
    ensures exists i :: IsInfixAmidWhitespace(s, r, i)
  {
    var n := FirstKept(s, 0);
    var m := LastKept(s, n, |s|);
    assert n < |s| ==> n < m;
    assert IsInfixAmidWhitespace(s, s[n..m], n);
    s[n..m]
  }

  /** Trimming has exactly one possible outcome: any infix that neither
      starts nor ends in whitespace and has only whitespace around it is
      the trimmed text. */
  lemma TrimIsUnique(s: string, r: string, i: int)
    requires IsInfixAmidWhitespace(s, r, i) && IsTrimmed(r)
    ensures r == Trim(s)
  {
    var n := FirstKept(s, 0);
    var m := LastKept(s, n, |s|);
    if r == [] {
      assert n == |s|;
    } else {
      assert s[i] == r[0];
      assert n == i;
      assert s[i + |r| - 1] == r[|r| - 1];
      assert m == i + |r|;
    }
  }

  /** Every character of the trimmed text is a character of the text. */
  lemma TrimKeepsCharacters(s: string)
    ensures forall k :: 0 <= k < |Trim(s)| ==> Trim(s)[k] in s
  {
    var r := Trim(s);
    var i :| IsInfixAmidWhitespace(s, r, i);
    assert forall k :: 0 <= k < |r| ==> r[k] == s[i + k];
  }

  /** Rust's `char::to_lowercase` on ASCII letters; every other character is kept. */
  function ToLowerChar(c: char): char {
    if 'A' <= c <= 'Z' then (c as int + 32) as char else c
  }

  /** Rust's `str::to_lowercase`, character by character. */
  function ToLower(s: string): (r: string)
    ensures |r| == |s|
    ensures forall i :: 0 <= i < |s| ==> r[i] == ToLowerChar(s[i])
    decreases |s|
  {
    if |s| == 0 then [] else [ToLowerChar(s[0])] + ToLower(s[1..])
  }

  lemma ToLowerAppend(a: string, b: string)
    ensures ToLower(a + b) == ToLower(a) + ToLower(b)
  {
    var l, r := ToLower(a + b), ToLower(a) + ToLower(b);
    forall i | 0 <= i < |l| ensures l[i] == r[i] {
      if i < |a| { assert (a + b)[i] == a[i]; } else { assert (a + b)[i] == b[i - |a|]; }
    }
  }
}

=== FILE: wrappers.dfy ===
/** Failure-compatible wrappers used for the proxy's error paths. */
module Wrappers {

  /** A value that may be absent, as Rust's `Option`. */
  datatype Option<+T> = None | Some(value: T) {

    /** The contained value, or `default` when absent (Rust's `unwrap_or`). */
    function GetOr(default: T): T {
      match this
      case Some(v) => v
      case None => default
    }
  }

  /** Success or failure with an error value, as Rust's `Result`. */
  datatype Result<+R, +E> = Success(value: R) | Failure(error: E)
}
